=== FILE: README.md ===
# Bloom voting and two-phase commit, modelled in Dafny

This project models two pieces of a Bloom/Bud code base as pure step
functions over immutable maps and sets. One tick handles one input. Rules
written with `<=` take effect within the tick. Rules written with `<+` or
`<-` shape the next state, with deletions applied before insertions.

1. **The ratio vote counter** (`RatioVoteCounter` in voting/voting2.rb),
   with its `UnanimousVoteCounter` and `MajorityVoteCounter` variants.
   - Inputs are `begin_vote`, `ratio` and `cast_vote`. Votes and ratios
     for ballots that have not begun are buffered.
   - A ballot completes when its stored votes number `num_votes`. The
     threshold is then `ceil(ratio × num_votes)`.
   - The result is `:success` with the one choice that reaches the
     threshold, or `:fail` with no choice. All of the ballot's state is
     then purged.
   - Ratios are exact rationals (`Quota.Ratio`).
   - `votes_rcvd` is a set of `(ballot, choice, note)` rows.
   - The result's vote and note lists are tallies: each value with its
     multiplicity.
   - Modules:
     - `Quota`: threshold arithmetic.
     - `VoteCounter`: the per-tick step `Tick`.
     - `BallotLifecycle`: replaying a ballot from an empty counter.
     - `VoteScenarios`: every scenario of voting/tc_voting2.rb restated
       as a lemma.
2. **Two-phase commit** (hw5/twophasecommit.rb).
   - `TwoPCParticipant` is the active/paused participant.
   - `TwoPCCoordinator` covers:
     - the `participants` table, and the multicast membership that the
       add and delete requests maintain;
     - routing of pause and resume requests to hosts;
     - the size of the phase-1 ballot;
     - the phase-1 to phase-2 decision.
   - The coordinator's phase-1 ballot runs in the vote counter above.

What the code does at its edges, which the model follows:
- **Missing ratio.** A ballot that completes before its ratio arrives is
  reported as `:fail`: it has no `votes_needed` row, so no `winning_vote`
  row either, and the outer join reports a failure
  (voting/voting2.rb:149-176). The comment at voting/voting2.rb:44 asks
  for the ratio to be set before the vote starts.
- **Repeated `begin_vote`.** A `begin_vote` for a ballot already in
  `ongoing_ballots` adds nothing, because `notin` filters it out
  (voting/voting2.rb:105-107).
- **`num_votes` is not checked.** A ballot completes when its count in
  `vote_summary` equals `num_votes` (voting/voting2.rb:141-143).
  - A ballot with `num_votes` 0 never completes, because a ballot without
    votes has no `vote_summary` row.
  - A negative `num_votes` never completes either, so `nat` loses nothing.
- **Two qualifying choices.** The comments at voting/voting2.rb:80-86 say
  that the insertion into `winning_vote`, keyed by ballot, then raises a
  duplicate-key error. `VoteCounter.CheckedTick` aborts such a tick with
  no result and no next state; `VoteCounter.Tick` marks the ballot's
  result with status `KeyError`.
- **Late votes.** `votes_rcvd <= cast_vote` stores every vote
  (voting/voting2.rb:124), also one for a ballot that was already purged.
  Such a vote counts toward a later ballot with the same id.
- **The `participants` key.** The table is keyed by `[:reqid, :partid]`
  (hw5/twophasecommit.rb:68). The same `partid` can therefore hold several
  hosts under different request ids.

In two places `Tick` follows the source's own comments rather than its
code. Both are rows under "## Findings", with the code as written modelled
beside the corrected version:
- **Majority quota.** `MajorityCounter` needs floor(n/2)+1 votes, as
  voting/voting2.rb:201-203 and 208 say. `MajorityAsWritten` is the same
  counter with the ratio 0.51 that line 214 stores. The majority scenarios
  of voting/tc_voting2.rb are proved for both counters.
- **The `result` join.** `Tick` pairs each completed ballot with the
  `winning_vote` of the same ballot id, as the comment at
  voting/voting2.rb:167-169 describes. The join at lines 170-176 has no
  join predicate; `VoteCounter.ResultRowsAsWritten` models it.

## Source defects and the reading taken

The coordinator in hw5/twophasecommit.rb has these defects. The model
takes the evident intent in each place:

- **Line 93.** `participants <- (...).paird(...) { |p| ... }` calls
  `paird`, which does not exist, with a one-argument block over a pair.
  - Read as: delete every `participants` row whose `partid` matches the
    request (`TwoPCCoordinator.Without`).
- **Line 89.** `ack <= control_acks` names a collection that is never
  declared.
  - Read as: every incoming `control_ack` yields `ack(reqid)` (the
    `ControlAck` case of `TwoPCCoordinator.Handle`).
- **Line 116.** `p.response` reads a field that the `result` schema
  `[:ballot_id] => [:status, :result, :votes, :notes]` does not have.
  - Read as: commit when the phase-1 ballot succeeded with result `:yes`
    (`TwoPCCoordinator.PhaseTwo`).
- **Line 104.** `acks_required <= [member.length]` writes to a collection
  that is never declared.
  - Read as: the phase-1 ballot expects one vote per member
    (`TwoPCCoordinator.PhaseOneBallot`).
- **Line 115.** `commit_request * phase_one_response` has no join
  predicate, and `commit_request` only lives for the tick in which the
  request arrives.
  - Read as: the decision is taken for the request whose ballot completed
    (`PhaseTwo` takes that ballot's result).
- **Lines 80 and 85.** `pause` and `unpause` are channels but are written
  with `<=`, where Bud sends on a channel with `<~`.
  - Read as: sends.
- **Lines 77 and 94.** `ack <+ add_participant { |r| r.reqid }` and
  `ack <+ delete_participant { |r| r.reqid }` return the bare `reqid`, not
  the one-column tuple `[r.reqid]` that the other rules of the file build
  (lines 76, 81 and 92), so as written they do not insert `ack(reqid)`.
  - Read as: every add and every delete is acked with its `reqid`
    (`acks == {reqid}` in `TwoPCCoordinator.Handle`).

## Model

| member | source | states |
|---|---|---|
| Quota.CeilDiv | voting/voting2.rb:34-38 | the rounded-up quotient: the least k with k·d ≥ a |
| Quota.CeilIsLeast | voting/voting2.rb:37-38 | every j with j·d ≥ a is at least the ceiling, so the ceiling is unique |
| Quota.VotesNeeded | voting/voting2.rb:149-151 | `votes_needed` is ceil(num/den × n), the least k with k·den ≥ num·n; the strict-majority quota is the least k with 2k > n |
| Quota.UnanimousNeedsAll | voting/voting2.rb:196-197 | with ratio 1 all n votes are needed |
| Quota.AboveHalfNeedsMajority | voting/voting2.rb:80-86 | a ratio above 1/2 needs more than half of the n ≥ 1 votes |
| Quota.FiftyOneAgreesUpToFifty | voting/voting2.rb:201-214 | for 1 ≤ n ≤ 50, ceil(0.51·n) equals floor(n/2)+1 |
| Quota.FiftyOneAtLeastStrictMajority | voting/voting2.rb:201-214 | for n ≥ 1, ceil(0.51·n) ≥ floor(n/2)+1 |
| Quota.FiftyOneDiffersAtFiftyOne | voting/voting2.rb:201-214 | at n = 51 the rules first differ: 27 needed against 26 |
| VoteCounter.VoteTally | voting/voting2.rb:128-129 | the `votes` field holds every choice cast for the ballot, each with the number of rows carrying it |
| VoteCounter.NoteTally | voting/voting2.rb:128-129 | the `notes` field holds every note sent for the ballot, each with its multiplicity |
| VoteCounter.Decide | voting/voting2.rb:149-176 | success iff a quota exists and exactly one choice reaches `votes_needed`, and that choice is the result; duplicate-key error iff two or more do; otherwise failure with no result; votes and notes are the ballot's tallies |
| VoteCounter.DecideSelectsSoleQualifier | voting/voting2.rb:158-176 | w wins iff w was cast, reaches `votes_needed`, and no other cast choice does |
| VoteCounter.AboveHalfDecides | voting/voting2.rb:80-86 | with a ratio above 1/2 the duplicate-key error cannot happen, and w wins iff its count reaches `votes_needed` |
| VoteCounter.UnanimousDecides | voting/voting2.rb:185-198 | at ratio 1, w wins iff every vote is w, and there is never a duplicate-key error |
| VoteCounter.StrictMajorityDecides | voting/voting2.rb:201-203 | under floor(n/2)+1, w wins iff more than half of the votes are w |
| VoteCounter.Received | voting/voting2.rb:124 | within the tick, `votes_rcvd` holds the stored votes plus the vote of this tick, and only that vote's ballot gains a row |
| VoteCounter.BallotInsert | voting/voting2.rb:105-107 | `ongoing_ballots` gains an entry only from a `begin_vote` for a ballot not yet ongoing, with that `num_votes` |
| VoteCounter.FixedQuota | voting/voting2.rb:196-214 | the ratio counter has no fixed quota; the unanimous counter's quota is the ratio 1, the majority counter as written the ratio 51/100, and the majority counter the strict majority |
| VoteCounter.FixedQuotaNeeds | voting/voting2.rb:196-214 | under the fixed quotas, `votes_needed` (line 150) for n votes is n for the unanimous counter, the least k with 2k > n (that is, floor(n/2)+1) for the majority counter, and ceil(51·n/100) for the majority counter as written |
| VoteCounter.RatioInsert | voting/voting2.rb:110-114 | the ratio counter stores the first `ratio` sent for a ballot and ignores later ones; a fixed-quota counter, which overrides this rule at lines 196-197 and 213-214, stores its own quota on every `begin_vote` and never reads `ratio` |
| VoteCounter.NextState | voting/voting2.rb:105-181 | the completed ballots leave `ongoing_ballots`, `ballot_ratios` and `votes_rcvd`; every other ballot keeps its entries and gains the tick's vote; new ballots come only from a `begin_vote`; a ratio that is new, or that outlives its ballot's completion, is exactly the one the tick inserts: the first `ratio` sent for the ratio counter, the fixed quota on every `begin_vote` for the others |
| VoteCounter.Tick | voting/voting2.rb:105-181 | a ballot yields a result exactly when its stored votes number `num_votes`; the result is decided over all its votes with its quota; completed ballots leave `ongoing_ballots`, `ballot_ratios` and `votes_rcvd`, keeping only a ratio the tick itself inserts; every other ballot's entries are unchanged; new ballots come only from a `begin_vote`, and a new ratio is exactly the tick's insertion: the ratio sent for the ratio counter, the own quota for a fixed-quota counter |
| VoteCounter.RatioBeginStoresNoRatio | voting/voting2.rb:113-114 | on the ratio counter a `begin_vote` never creates a ratio |
| VoteCounter.CompletedRatioPurged | voting/voting2.rb:179-181 | a completed ballot keeps no ratio unless the tick inserts one for it |
| VoteCounter.TickKeyError | voting/voting2.rb:78-85 | a completed ballot's result carries the duplicate-key error exactly when two or more of its choices reach `votes_needed` |
| VoteCounter.CheckedTick | voting/voting2.rb:78-85 | the tick aborts, with no result and no next state, exactly when a completed ballot has two choices reaching `votes_needed`, and the error names exactly those ballots; otherwise it is `Tick` and no result carries `KeyError` |
| VoteCounter.AboveHalfNeverAborts | voting/voting2.rb:80-86 | the unanimous and majority counters never raise the duplicate-key error, nor does the ratio counter while every stored ratio is above 1/2 |
| VoteCounter.QuietTick | voting/voting2.rb:141-143 | a tick that completes no ballot reports nothing, purges nothing, and only applies its insertions and its vote |
| VoteCounter.FirstBeginWins | voting/voting2.rb:105-107 | a `begin_vote` for an open ballot keeps the original `num_votes` |
| VoteCounter.FirstRatioWins | voting/voting2.rb:113-114 | a `ratio` for a ballot that already has one keeps the original ratio |
| VoteCounter.FixedVariantIgnoresRatio | voting/voting2.rb:196-214 | the unanimous and majority counters never take a ratio from the `ratio` input |
| VoteCounter.BufferedVotesCount | voting/voting2.rb:62-64 | votes stored before `begin_vote` are kept, and the ballot completes on the next tick iff they already number `num_votes` |
| VoteCounter.VotesAccumulate | voting/voting2.rb:120-124 | votes that keep their ballot below `num_votes` are stored, and nothing else changes |
| VoteCounter.MajorityAsWrittenMissesStrictMajority | voting/voting2.rb:201-214 | with the 0.51 ratio as written, 26 votes out of 51 fail, though they are a strict majority |
| VoteCounter.MajorityAsWrittenAgreesUpToFifty | voting/voting2.rb:201-214 | up to 50 votes the 0.51 ratio decides every ballot as the strict majority does |
| VoteCounter.WinningVotes | voting/voting2.rb:149-163 | `winning_vote` holds (b, w) exactly when b completed, has a quota, and w was cast for b at least `votes_needed` times |
| VoteCounter.ResultRowsAsWritten | voting/voting2.rb:170-176 | the join as written reports a success for every matching winning vote, and a failure for a completed ballot whenever there is no winning vote at all or one for another ballot, even when the ballot has its own; every row is a success with a winner or a failure without one |
| VoteCounter.ResultRowsAsWrittenClash | voting/voting2.rb:170-176 | the outer join as written pairs every completed ballot with every winning vote, giving one ballot both a success and a failure row |
| VoteCounter.ResultRowsByBallot | voting/voting2.rb:165-176 | joined on the ballot id, each completed ballot gets exactly one row: success with its winning vote if one exists, otherwise failure; no row has any other shape |
| VoteCounter.TickWinningKeyed | voting/voting2.rb:78-85 | when no result carries the duplicate-key error, `winning_vote` holds at most one row per ballot, as its key on `ballot_id` demands |
| VoteCounter.TickJoinsByBallot | voting/voting2.rb:158-176 | when no completed ballot has two qualifying choices, the results of a tick are exactly the ballot-keyed join of the completed ballots with that tick's winning votes |
| BallotLifecycle.OpenRatioBallot | voting/voting2.rb:105-124 | `begin_vote`, `ratio`, then votes short of `num_votes` leave exactly that ballot, its ratio and its votes |
| BallotLifecycle.OpenFixedBallot | voting/voting2.rb:196-214 | for the fixed-quota counters, `begin_vote` then votes short of `num_votes` leave exactly that ballot, its fixed quota and its votes |
| BallotLifecycle.LastVoteCompletes | voting/voting2.rb:141-181 | the vote that reaches `num_votes` yields that ballot's single result over all of its votes and empties the counter |
| VoteScenarios.RatioOneSuccess | voting/tc_voting2.rb:33-43 | ratio 1, n = 2, Obama and Obama: success with Obama, votes Obama ×2, both notes, counter purged |
| VoteScenarios.RatioHalfSuccess | voting/tc_voting2.rb:46-52 | ratio 1/2, n = 3, Obama, McCain, Obama: success with Obama |
| VoteScenarios.RatioOneFail | voting/tc_voting2.rb:62-67 | ratio 1, n = 2, Obama and McCain: failure with no result |
| VoteScenarios.RatioHalfFail | voting/tc_voting2.rb:70-76 | ratio 1/2, n = 3, Obama, McCain, Nader: failure with no result |
| VoteScenarios.UnanimousSuccess | voting/tc_voting2.rb:86-94 | unanimous counter, two Obama votes: success with Obama, both votes and notes |
| VoteScenarios.UnanimousFail | voting/tc_voting2.rb:96-101 | unanimous counter, Obama and McCain: failure with no result |
| VoteScenarios.MajorityPairSuccess | voting/tc_voting2.rb:110-119 | both majority counters (ratio 0.51 as written, and the strict majority), n = 2, two Obama votes: success with Obama, both votes and notes |
| VoteScenarios.MajoritySuccess | voting/tc_voting2.rb:121-131 | both majority counters, n = 4, three Obama against one McCain: success with Obama, votes Obama ×3 and McCain ×1 |
| VoteScenarios.MajorityFail | voting/tc_voting2.rb:133-138 | both majority counters, n = 2, a 1–1 split: failure with no result |
| VoteScenarios.TwoBallotsCompleteTogether | voting/voting2.rb:170-176 | a reachable tick completes two ballots with winners at once, and the join as written then reports ballot 1 both as a success and as a failure |
| TwoPCParticipant.Start | hw5/twophasecommit.rb:38-40 | a participant starts active, having accepted no ballot |
| TwoPCParticipant.AckOf | hw5/twophasecommit.rb:53-54 | an acknowledgement goes back to the sender: `to` and `from` swapped, same `reqid` |
| TwoPCParticipant.AckRoundTrip | hw5/twophasecommit.rb:53-54 | acknowledging an acknowledgement gives back the original message |
| TwoPCParticipant.Step | hw5/twophasecommit.rb:42-55 | a "yes" is cast for exactly the ballots accepted so far, plus an arriving ballot when active, and never any other response; every pause or unpause is acked once whatever the state; pause makes the next state inactive, unpause makes it active |
| TwoPCParticipant.PauseIdempotent | hw5/twophasecommit.rb:50-53 | a repeated pause changes no state but is acked again |
| TwoPCParticipant.UnpauseIdempotent | hw5/twophasecommit.rb:51-54 | a repeated unpause changes no state but is acked again |
| TwoPCParticipant.OnlyYes | hw5/twophasecommit.rb:46 | over any run, every vote a participant casts is "yes" |
| TwoPCParticipant.VoteTrace | hw5/twophasecommit.rb:42-47 | over a run, the participant votes for ballot i iff it had already accepted i, or i arrives at a tick where it is active |
| TwoPCParticipant.StaysPaused | hw5/twophasecommit.rb:50-51 | without an unpause, a paused participant stays paused |
| TwoPCParticipant.PausedNeverVotes | hw5/twophasecommit.rb:42-51 | while no unpause arrives, a paused participant casts no vote for a ballot it had not accepted before |
| TwoPCParticipant.ActiveVotesOnce | hw5/twophasecommit.rb:44-46 | an active participant answers an arriving ballot with exactly one response, "yes", in that tick |
| TwoPCCoordinator.HostsOf | hw5/twophasecommit.rb:80-87 | the hosts registered under a `partid`, under any request id |
| TwoPCCoordinator.Route | hw5/twophasecommit.rb:80-87 | a pause or resume reaches exactly the hosts of the `partid`, from this coordinator, with the request's `reqid` |
| TwoPCCoordinator.Without | hw5/twophasecommit.rb:93 | deleting a `partid` removes every row with it and keeps every other row and its host |
| TwoPCCoordinator.MembersOf | hw5/twophasecommit.rb:92 | the member rows a delete removes are `[host, partid]` for the hosts of that `partid` |
| TwoPCCoordinator.Handle | hw5/twophasecommit.rb:73-95 | add stores the row, adds the member and acks, and fails only on a key already bound to another host; delete drops the `partid`'s rows and members and acks even for an unknown `partid`; pause and resume reach every host of the `partid` and change nothing; a `control_ack` becomes an `ack` |
| TwoPCCoordinator.HandleKeepsMirror | hw5/twophasecommit.rb:75-92 | every successful request keeps the membership equal to the `[host, partid]` pairs of the table |
| TwoPCCoordinator.HandleAllKeepsMirror | hw5/twophasecommit.rb:75-94 | over any run of requests that succeeds, the membership stays equal to the `[host, partid]` pairs of the table |
| TwoPCCoordinator.MirrorsFromInitial | hw5/twophasecommit.rb:65-94 | starting with no participant, the membership mirrors the table after any run of requests that succeeds |
| TwoPCCoordinator.AddThenDelete | hw5/twophasecommit.rb:75-94 | after adding and then deleting a `partid`, no host is left to pause |
| TwoPCCoordinator.PhaseOneBallot | hw5/twophasecommit.rb:104-105 | a commit request opens a ballot keyed by its `reqid`, expecting one vote per registered host and `partid` |
| TwoPCCoordinator.PhaseTwo | hw5/twophasecommit.rb:115-121 | commit iff the phase-1 ballot succeeded with result "yes", abort otherwise |
| TwoPCCoordinator.PhaseOneCommitsIffAllYes | hw5/twophasecommit.rb:104-121 | under the unanimous counter the phase-1 ballot completes with the last member's vote, and the decision is commit iff every member voted "yes" |

## Left out

- hw2/xact_kvs.rb is not part of this model. It is an unfinished wrapper over a key-value store and a lock manager that are not in the code base.
- The multicast layer and the voting agent are foreign modules that are not in the code base. This covers `import Multicast`, `rm.send_mcast`, `rm.mcast_done`, `pipe_sent`, `TwoPCVotingCounting` and `VotingAgent`.
  - `TwoPCCoordinator.Coordinator.members` stands in for their member table. It is a plain set of `[host, partid]` pairs and does not model that table's key: the comment at hw5/twophasecommit.rb:66-67 says the member table maps each host to its ident, so it would refuse a second `partid` for a host, while `members` accepts it.
  - The phase-1 result is an input to `TwoPCCoordinator.PhaseTwo`.
  - The phase-2 acknowledgement ballot and `commit_response` (hw5/twophasecommit.rb:98-100, 122-127) are left out with them.
- Failure detection is left out. It is only a TODO in the source (hw5/twophasecommit.rb:129).
- The `debug` block (voting/voting2.rb:92-100) is left out. It only writes to standard output.
- Floating point is not modelled. Ruby's float product and `.ceil` are replaced by exact rationals, and negative ratios are not modelled.
- Bud's scheduler is not modelled:
  - Each tick handles a single input; several inputs arriving in one tick, and channel delivery delays, are left out.
  - Acks sent with `<+` are reported by the step that causes them rather than one tick later.
- VoteCounter.Tick: on two qualifying choices it still reports a `KeyError` result, purges the ballot and returns a next state. That state is the model's choice, since Bud aborts the tick; `VoteCounter.CheckedTick` models the abort, and `Replay` runs `Tick`.
- VoteCounter.Decide: the `votes` and `notes` lists are modelled as tallies (value and multiplicity), not ordered arrays, because the order `accum` produces is Bud's.
- TwoPCParticipant.PausedNeverVotes: this is weaker than "a paused participant casts no vote". `active_ballot` is a table, so a ballot accepted before a pause keeps producing its "yes" on every later tick; `Step` states this. Whether the voting agent sends such repeats again is outside the model.
- TwoPCCoordinator.PhaseTwo: this does not model the cross product with the transient `commit_request`. The decision is stated for the ballot's own request.
- TwoPCCoordinator.PhaseOneBallot: the ballot size is `|members|`; the snapshot timing between phases is not modelled.

## Findings

| source | as written | input that shows it | evidently intended | confidence | as-written member | corrected member |
|---|---|---|---|---|---|---|
| voting/voting2.rb:214 | the majority counter stores the ratio 0.51, so it needs ceil(0.51·n) votes | 51 votes, 26 of them for one choice: `:fail` | floor(n/2)+1 votes, as the comments at lines 202-203 and 208 say, so 26 of 51 win | not executed | VoteCounter.MajorityAsWrittenMissesStrictMajority | VoteCounter.StrictMajorityDecides |
| voting/voting2.rb:170-176 | `(completed_ballots * winning_vote).outer` has no join predicate, so every completed ballot is paired with every winning vote | vote (1, A) arrives first; then ratio 1 for ballots 1 and 2; then ballots 2 and 1 begin with one vote each; then vote (2, B) arrives. Both ballots complete in one tick, and ballot 1 gets both a success row and a failure row in `result`, which is keyed by ballot id | join on `ballot_id`: one result per completed ballot | not executed | VoteScenarios.TwoBallotsCompleteTogether | VoteCounter.TickJoinsByBallot |

=== FILE: ballot_lifecycle.dfy ===
/**
 * The life of one ballot in the vote counter, replayed from an empty
 * counter: `begin_vote` (and, for the ratio counter, `ratio`), votes short
 * of `num_votes`, then the vote that completes it.
 */
module BallotLifecycle {
  import opened Wrappers
  import opened Quota
  import opened VoteCounter

  /** One tick of a replay. */
  lemma ReplayStep(v: Variant, s: Counter, x: Input, rest: seq<Input>)
    requires Wf(v, s)
    ensures Replay(v, s, [x] + rest) == Replay(v, Tick(v, s, x).next, rest)
  {
    assert ([x] + rest)[1..] == rest;
  }

  /** `begin_vote` on an empty ratio counter opens the ballot with no ratio. */
  lemma RatioBegin(b: BallotId, n: nat)
    ensures Tick(RatioCounter, Empty, BeginVote(b, n)).next == Counter(map[b := n], map[], {})
  {
    QuietTick(RatioCounter, Empty, BeginVote(b, n));
  }

  /** The first `ratio` for an open ballot is stored. */
  lemma RatioSet(b: BallotId, n: nat, r: Ratio)
    ensures Tick(RatioCounter, Counter(map[b := n], map[], {}), SetRatio(b, r)).next
            == Counter(map[b := n], map[b := OfRatio(r)], {})
  {
    QuietTick(RatioCounter, Counter(map[b := n], map[], {}), SetRatio(b, r));
  }

  lemma BeginThenRatio(b: BallotId, n: nat, r: Ratio)
    ensures Replay(RatioCounter, Empty, [BeginVote(b, n), SetRatio(b, r)])
            == Counter(map[b := n], map[b := OfRatio(r)], {})
  {
    var s1 := Counter(map[b := n], map[], {});
    assert Replay(RatioCounter, Empty, [BeginVote(b, n), SetRatio(b, r)]) == Replay(RatioCounter, s1, [SetRatio(b, r)]) by {
      RatioBegin(b, n);
      assert [BeginVote(b, n), SetRatio(b, r)][1..] == [SetRatio(b, r)];
    }
    assert Replay(RatioCounter, s1, [SetRatio(b, r)]) == Counter(map[b := n], map[b := OfRatio(r)], {}) by {
      RatioSet(b, n, r);
      assert [SetRatio(b, r)][1..] == [];
    }
  }

  lemma BeginFixed(v: Variant, b: BallotId, n: nat)
    requires v != RatioCounter
    ensures Replay(v, Empty, [BeginVote(b, n)])
            == Counter(map[b := n], map[b := FixedQuota(v).value], {})
  {
    QuietTick(v, Empty, BeginVote(b, n));
  }

  /** Votes short of `num_votes` on the one open ballot are only stored. */
  lemma VotesOnOpenBallot(v: Variant, b: BallotId, n: nat, q: Quota, rows: seq<Row>)
    requires Wf(v, Counter(map[b := n], map[b := q], {}))
    requires forall x | x in rows :: x.ballot == b
    requires |set x | x in rows| < n
    ensures Replay(v, Counter(map[b := n], map[b := q], {}), Casts(rows))
            == Counter(map[b := n], map[b := q], set x | x in rows)
  {
    var s := Counter(map[b := n], map[b := q], {});
    assert RowsOf({}, b) + (set x | x in rows) == set x | x in rows;
    assert BelowQuorum(s, b, rows);
    VotesAccumulate(v, s, b, rows);
    assert {} + (set x | x in rows) == set x | x in rows;
  }

  /** `begin_vote`, then `ratio`, then votes short of `num_votes`: the
      ratio counter holds exactly that ballot. */
  lemma OpenRatioBallot(b: BallotId, n: nat, r: Ratio, rows: seq<Row>)
    requires forall x | x in rows :: x.ballot == b
    requires |set x | x in rows| < n
    ensures Replay(RatioCounter, Empty, [BeginVote(b, n), SetRatio(b, r)] + Casts(rows))
            == Counter(map[b := n], map[b := OfRatio(r)], set x | x in rows)
  {
    var s2 := Counter(map[b := n], map[b := OfRatio(r)], {});
    var prefix := [BeginVote(b, n), SetRatio(b, r)];
    assert Replay(RatioCounter, Empty, prefix + Casts(rows)) == Replay(RatioCounter, s2, Casts(rows)) by {
      BeginThenRatio(b, n, r);
      ReplayAppend(RatioCounter, Empty, prefix, Casts(rows));
    }
    VotesOnOpenBallot(RatioCounter, b, n, OfRatio(r), rows);
  }

  /** `begin_vote`, then votes short of `num_votes`: a fixed-quota counter
      holds exactly that ballot with its own quota. */
  lemma OpenFixedBallot(v: Variant, b: BallotId, n: nat, rows: seq<Row>)
    requires v != RatioCounter
    requires forall x | x in rows :: x.ballot == b
    requires |set x | x in rows| < n
    ensures Replay(v, Empty, [BeginVote(b, n)] + Casts(rows))
            == Counter(map[b := n], map[b := FixedQuota(v).value], set x | x in rows)
  {
    var s1 := Counter(map[b := n], map[b := FixedQuota(v).value], {});
    assert Replay(v, Empty, [BeginVote(b, n)] + Casts(rows)) == Replay(v, s1, Casts(rows)) by {
      BeginFixed(v, b, n);
      ReplayAppend(v, Empty, [BeginVote(b, n)], Casts(rows));
    }
    VotesOnOpenBallot(v, b, n, FixedQuota(v).value, rows);
  }

  /** The last vote completes the ballot: its result is decided over all of
      its votes, and the counter is empty again. */
  lemma LastVoteCompletes(v: Variant, b: BallotId, n: nat, q: Quota, rows: set<Row>, last: Row)
    requires Wf(v, Counter(map[b := n], map[b := q], rows))
    requires forall x | x in rows :: x.ballot == b
    requires last.ballot == b && last !in rows && |rows| + 1 == n
    ensures var out := Tick(v, Counter(map[b := n], map[b := q], rows), CastVote(last));
            && out.results.Keys == {b}
            && out.results[b] == Decide(Some(q), rows + {last}, n)
            && out.next == Empty
  {
    var s := Counter(map[b := n], map[b := q], rows);
    var out := Tick(v, s, CastVote(last));
    assert RowsOf(rows, b) == rows;
    assert RowsOf(Received(s, CastVote(last)), b) == rows + {last};
    assert b in out.results;
    assert out.next.rcvd == {} by {
      var done := Completed(rows + {last}, s.ongoing);
      assert done == {b};
    }
  }

  /** A whole ratio ballot from an empty counter: `begin_vote`, `ratio`,
      the votes short of `num_votes`, then the vote that completes it. */
  lemma RatioBallotOutcome(b: BallotId, n: nat, r: Ratio, rows: seq<Row>, last: Row)
    requires forall x | x in rows :: x.ballot == b
    requires last.ballot == b && last !in rows && |set x | x in rows| + 1 == n
    ensures var s := Replay(RatioCounter, Empty, [BeginVote(b, n), SetRatio(b, r)] + Casts(rows));
            var out := Tick(RatioCounter, s, CastVote(last));
            && out.results.Keys == {b}
            && out.results[b] == Decide(Some(OfRatio(r)), (set x | x in rows) + {last}, n)
            && out.next == Empty
  {
    assert Replay(RatioCounter, Empty, [BeginVote(b, n), SetRatio(b, r)] + Casts(rows))
           == Counter(map[b := n], map[b := OfRatio(r)], set x | x in rows) by {
      OpenRatioBallot(b, n, r, rows);
    }
    LastVoteCompletes(RatioCounter, b, n, OfRatio(r), (set x | x in rows), last);
  }

  /** A whole ballot of a fixed-quota counter from an empty counter. */
  lemma FixedBallotOutcome(v: Variant, b: BallotId, n: nat, rows: seq<Row>, last: Row)
    requires v != RatioCounter
    requires forall x | x in rows :: x.ballot == b
    requires last.ballot == b && last !in rows && |set x | x in rows| + 1 == n
    ensures var s := Replay(v, Empty, [BeginVote(b, n)] + Casts(rows));
            var out := Tick(v, s, CastVote(last));
            && out.results.Keys == {b}
            && out.results[b] == Decide(FixedQuota(v), (set x | x in rows) + {last}, n)
            && out.next == Empty
  {
    var q := FixedQuota(v).value;
    assert Replay(v, Empty, [BeginVote(b, n)] + Casts(rows))
           == Counter(map[b := n], map[b := q], set x | x in rows) by {
      OpenFixedBallot(v, b, n, rows);
    }
    LastVoteCompletes(v, b, n, q, (set x | x in rows), last);
  }
}

=== FILE: quota.dfy ===
/**
 * Thresholds of the ratio vote counter (voting/voting2.rb).
 *
 * The source stores a Ruby number per ballot and computes
 * `votes_needed = (ratio * num_votes).ceil`. Here a ratio is an exact,
 * non-negative rational num/den, and the ceiling is characterised as the
 * least k with k * den >= num * n.
 */
module Quota {

  datatype Fraction = Fraction(num: nat, den: nat)

  /** A non-negative rational number num/den. */
  type Ratio = f: Fraction | f.den > 0 witness Fraction(1, 1)

  /** The threshold rule stored per ballot: a ratio of the expected votes,
      or the strict majority floor(n/2) + 1 that the majority counter's
      documentation promises. */
  datatype Quota = OfRatio(ratio: Ratio) | StrictMajority

  const One: Ratio := Fraction(1, 1)

  /** The ratio the majority counter inserts as written (voting/voting2.rb:214). */
  const FiftyOneHundredths: Ratio := Fraction(51, 100)

  /** k is the ceiling of a / d: the least natural number with k * d >= a. */
  predicate IsCeil(k: nat, a: nat, d: nat)
  {
    k * d >= a && (k == 0 || (k - 1) * d < a)
  }

  lemma {:induction false} CeilIsLeast(k: nat, a: nat, d: nat, j: nat)
    requires d > 0 && IsCeil(k, a, d) && j * d >= a
    ensures k <= j
  {
    if j < k {
      assert j <= k - 1;
      assert j * d <= (k - 1) * d by {
        MulMonotone(j, k - 1, d);
      }
    }
  }

  lemma MulMonotone(x: nat, y: nat, d: nat)
    requires x <= y
    ensures x * d <= y * d
  {
    assert y * d == x * d + (y - x) * d;
  }

  /** The ceiling of a / d, in integer arithmetic. */
  function CeilDiv(a: nat, d: nat): (k: nat)
    requires d > 0
    ensures IsCeil(k, a, d)
  {
    var k := (a + d - 1) / d;
    var rem := (a + d - 1) % d;
    assert k * d + rem == a + d - 1;
    assert (k - 1) * d == k * d - d;
    k
  }

  /** `votes_needed` for a ballot of n expected votes (voting/voting2.rb:149-151). */
  function VotesNeeded(q: Quota, n: nat): (k: nat)
    ensures q.OfRatio? ==> IsCeil(k, q.ratio.num * n, q.ratio.den)
    ensures q.StrictMajority? ==> 2 * k > n && 2 * (k - 1) <= n
  {
    match q
    case OfRatio(r) => CeilDiv(r.num * n, r.den)
    case StrictMajority => n / 2 + 1
  }

  /** With ratio 1 every one of the n expected votes is needed. */
  lemma UnanimousNeedsAll(n: nat)
    ensures VotesNeeded(OfRatio(One), n) == n
  {
    var k := VotesNeeded(OfRatio(One), n);
    assert k * 1 >= n;
    assert k == 0 || (k - 1) * 1 < n;
  }

  /** A ratio strictly above one half needs more than half of n >= 1 votes,
      so two different choices cannot both reach the threshold
      (voting/voting2.rb:80-86). */
  lemma {:induction false} AboveHalfNeedsMajority(r: Ratio, n: nat)
    requires 2 * r.num > r.den && n >= 1
    ensures 2 * VotesNeeded(OfRatio(r), n) > n
  {
    var k := VotesNeeded(OfRatio(r), n);
    assert k * r.den >= r.num * n;
    calc {
      2 * k * r.den;
    >=
      2 * r.num * n;
    == { assert 2 * r.num * n == (2 * r.num) * n; }
      (2 * r.num) * n;
    >= { MulMonotone(r.den + 1, 2 * r.num, n); }
      (r.den + 1) * n;
    >
      { assert (r.den + 1) * n == r.den * n + n; }
      r.den * n;
    }
    if 2 * k <= n {
      MulMonotone(2 * k, n, r.den);
      assert false;
    }
  }

  /** The majority counter as written (ratio 0.51) and the strict majority
      its documentation promises agree for every n from 1 to 50. */
  lemma {:induction false} FiftyOneAgreesUpToFifty(n: nat)
    requires 1 <= n <= 50
    ensures VotesNeeded(OfRatio(FiftyOneHundredths), n) == VotesNeeded(StrictMajority, n)
  {
    var k := VotesNeeded(OfRatio(FiftyOneHundredths), n);
    var m := n / 2 + 1;
    assert IsCeil(k, 51 * n, 100);
    // m is a ceiling of 51n/100 as well, and the ceiling is unique.
    assert m * 100 >= 51 * n;
    assert (m - 1) * 100 < 51 * n;
    CeilIsLeast(k, 51 * n, 100, m);
    CeilIsLeast(m, 51 * n, 100, k);
  }

  /** For every n >= 1 the 0.51 ratio needs at least a strict majority. */
  lemma {:induction false} FiftyOneAtLeastStrictMajority(n: nat)
    requires n >= 1
    ensures VotesNeeded(OfRatio(FiftyOneHundredths), n) >= VotesNeeded(StrictMajority, n)
  {
    var k := VotesNeeded(OfRatio(FiftyOneHundredths), n);
    assert k * 100 >= 51 * n;
    assert 2 * k > n;
  }

  /** The first disagreement: 51 voters need 27 votes at ratio 0.51 but a
      strict majority is 26. */
  lemma FiftyOneDiffersAtFiftyOne()
    ensures VotesNeeded(OfRatio(FiftyOneHundredths), 51) == 27
    ensures VotesNeeded(StrictMajority, 51) == 26
  {
    var k := VotesNeeded(OfRatio(FiftyOneHundredths), 51);
    CeilIsLeast(k, 51 * 51, 100, 27);
    assert 26 * 100 < 51 * 51;
  }
}

=== FILE: twophase_coordinator.dfy ===
/**
 * The configuration side of the two-phase-commit coordinator
 * (`TwoPCCoordinator`, hw5/twophasecommit.rb:58-131): the `participants`
 * table with its add and delete requests and their acks, the routing of
 * pause and resume requests to hosts, the multicast membership those
 * requests maintain, the size of the phase-1 ballot, and the rule that
 * turns the phase-1 outcome into the phase-2 broadcast. One tick handles
 * one request.
 */
module TwoPCCoordinator {
  import opened Wrappers
  import opened Quota
  import opened VoteCounter
  import opened BallotLifecycle
  import opened TwoPCParticipant

  type PartId = string

  /** The `participants` table, keyed by `[:reqid, :partid]` with value
      `host` (hw5/twophasecommit.rb:68), and the multicast `member` rows
      `[host, partid]` that `participant_control` adds and removes. */
  datatype Coordinator = Coordinator(
    participants: map<(ReqId, PartId), Host>,
    members: set<(Host, PartId)>)

  const Initial := Coordinator(map[], {})

  /** The administrative requests of `AgreementConfigProtocol`
      (hw5/twophasecommit.rb:13-16) and an incoming `control_ack`. */
  datatype Request =
    | AddParticipant(reqid: ReqId, partid: PartId, host: Host)
    | DeleteParticipant(reqid: ReqId, partid: PartId)
    | PauseParticipant(reqid: ReqId, partid: PartId)
    | ResumeParticipant(reqid: ReqId, partid: PartId)
    | ControlAck(c: Control)

  /** The `ack` tuples, `pause` and `unpause` messages of a tick, and the
      next state. */
  datatype CoordinatorOut = CoordinatorOut(
    acks: set<ReqId>,
    pauses: set<Control>,
    unpauses: set<Control>,
    next: Coordinator)

  /** Adding a second host under a key already held by another one breaks
      the table's key constraint. */
  datatype ConfigError = KeyConflict(key: (ReqId, PartId), stored: Host, given: Host)

  /** The hosts registered under partid, whatever the request that added them. */
  function HostsOf(t: map<(ReqId, PartId), Host>, partid: PartId): (hs: set<Host>)
    ensures forall h :: h in hs <==> exists k | k in t :: k.1 == partid && t[k] == h
  {
    set k | k in t && k.1 == partid :: t[k]
  }

  /** The control messages a pause or resume request sends:
      `(request * participants).pairs(:partid => :partid)`, one to each host
      of the partid, from this coordinator, carrying the request's id
      (hw5/twophasecommit.rb:80-87). */
  function Route(self: Host, t: map<(ReqId, PartId), Host>, partid: PartId, reqid: ReqId): (cs: set<Control>)
    ensures forall c :: c in cs <==> c.from == self && c.reqid == reqid && c.to in HostsOf(t, partid)
  {
    set h | h in HostsOf(t, partid) :: Control(h, self, reqid)
  }

  /** The table without the rows of partid: the intended `participants <-`
      of hw5/twophasecommit.rb:93. */
  function Without(t: map<(ReqId, PartId), Host>, partid: PartId): (u: map<(ReqId, PartId), Host>)
    ensures forall k :: k in u <==> k in t && k.1 != partid
    ensures forall k | k in u :: u[k] == t[k]
  {
    map k | k in t && k.1 != partid :: t[k]
  }

  /** The `[host, partid]` rows of the partid's participants: what
      `rm.member <-` removes (hw5/twophasecommit.rb:92). */
  function MembersOf(t: map<(ReqId, PartId), Host>, partid: PartId): (ms: set<(Host, PartId)>)
    ensures forall h, p :: (h, p) in ms <==> p == partid && h in HostsOf(t, partid)
  {
    set h | h in HostsOf(t, partid) :: (h, partid)
  }

  /** One tick of `participant_control` (hw5/twophasecommit.rb:73-95). */
  function Handle(self: Host, c: Coordinator, r: Request): (res: Result<CoordinatorOut, ConfigError>)
    // Only an add that would give a stored key a second host fails.
    ensures res.Err? <==>
              r.AddParticipant? && (r.reqid, r.partid) in c.participants
              && c.participants[(r.reqid, r.partid)] != r.host
    // Add stores the row, registers the member and acks the request.
    ensures res.Ok? && r.AddParticipant? ==>
              && res.value.next.participants == c.participants[(r.reqid, r.partid) := r.host]
              && res.value.next.members == c.members + {(r.host, r.partid)}
              && res.value.acks == {r.reqid}
              && res.value.pauses == res.value.unpauses == {}
    // Delete drops every row of the partid, keeps every other row, and
    // acks even when the partid is unknown.
    ensures res.Ok? && r.DeleteParticipant? ==>
              && (forall k :: k in res.value.next.participants <==> k in c.participants && k.1 != r.partid)
              && (forall k | k in res.value.next.participants :: res.value.next.participants[k] == c.participants[k])
              && (forall m :: m in res.value.next.members <==>
                    m in c.members && !(m.1 == r.partid && m.0 in HostsOf(c.participants, r.partid)))
              && res.value.acks == {r.reqid}
              && res.value.pauses == res.value.unpauses == {}
    // Pause and resume reach every host of the partid, change no table and
    // ack nothing until the participant answers.
    ensures res.Ok? && (r.PauseParticipant? || r.ResumeParticipant?) ==>
              && res.value.next == c
              && res.value.acks == {}
              && (r.PauseParticipant? ==> res.value.unpauses == {})
              && (r.ResumeParticipant? ==> res.value.pauses == {})
              && forall m :: m in (if r.PauseParticipant? then res.value.pauses else res.value.unpauses) <==>
                   m.from == self && m.reqid == r.reqid
                   && exists k | k in c.participants :: k.1 == r.partid && c.participants[k] == m.to
    // A participant's acknowledgement becomes the ack of its request.
    ensures res.Ok? && r.ControlAck? ==>
              res.value == CoordinatorOut({r.c.reqid}, {}, {}, c)
  {
    match r
    case AddParticipant(reqid, partid, host) =>
      if (reqid, partid) in c.participants && c.participants[(reqid, partid)] != host then
        Err(KeyConflict((reqid, partid), c.participants[(reqid, partid)], host))
      else
        Ok(CoordinatorOut({reqid}, {}, {},
           Coordinator(c.participants[(reqid, partid) := host], c.members + {(host, partid)})))
    case DeleteParticipant(reqid, partid) =>
      Ok(CoordinatorOut({reqid}, {}, {},
         Coordinator(Without(c.participants, partid), c.members - MembersOf(c.participants, partid))))
    case PauseParticipant(reqid, partid) =>
      Ok(CoordinatorOut({}, Route(self, c.participants, partid, reqid), {}, c))
    case ResumeParticipant(reqid, partid) =>
      Ok(CoordinatorOut({}, {}, Route(self, c.participants, partid, reqid), c))
    case ControlAck(ack) =>
      Ok(CoordinatorOut({ack.reqid}, {}, {}, c))
  }

  /** The membership mirrors the table: one `[host, partid]` member per
      distinct host and partid registered. */
  predicate Mirrors(c: Coordinator)
  {
    c.members == set k | k in c.participants :: (c.participants[k], k.1)
  }

  /** The initial coordinator has no participant and no member. */
  lemma InitialMirrors()
    ensures Mirrors(Initial)
  {
  }

  /** Every request that succeeds keeps the membership a mirror of the table. */
  lemma {:induction false} HandleKeepsMirror(self: Host, c: Coordinator, r: Request)
    requires Mirrors(c) && Handle(self, c, r).Ok?
    ensures Mirrors(Handle(self, c, r).value.next)
  {
    var t := c.participants;
    var n := Handle(self, c, r).value.next;
    var u := n.participants;
    match r
    case AddParticipant(reqid, partid, host) =>
      forall m | m in n.members ensures m in set k | k in u :: (u[k], k.1) {
        if m == (host, partid) {
          assert (reqid, partid) in u;
        } else {
          var k :| k in t && m == (t[k], k.1);
          assert k in u && u[k] == t[k];
        }
      }
      forall m | m in set k | k in u :: (u[k], k.1) ensures m in n.members {
        var k :| k in u && m == (u[k], k.1);
        if k != (reqid, partid) {
          assert k in t && (t[k], k.1) in c.members;
        }
      }
    case DeleteParticipant(reqid, partid) =>
      forall m | m in n.members ensures m in set k | k in u :: (u[k], k.1) {
        var k :| k in t && m == (t[k], k.1);
        assert k.1 != partid;
        assert k in u;
      }
      forall m | m in set k | k in u :: (u[k], k.1) ensures m in n.members {
        var k :| k in u && m == (u[k], k.1);
        assert k in t && m == (t[k], k.1);
      }
    case PauseParticipant(_, _) =>
    case ResumeParticipant(_, _) =>
    case ControlAck(_) =>
  }

  /** A sequence of requests, one per tick. A key conflict aborts the run,
      as Bud's key-constraint error aborts the tick. */
  function HandleAll(self: Host, c: Coordinator, rs: seq<Request>): Result<Coordinator, ConfigError>
    decreases |rs|
  {
    if |rs| == 0 then Ok(c)
    else
      match Handle(self, c, rs[0])
      case Err(e) => Err(e)
      case Ok(out) => HandleAll(self, out.next, rs[1..])
  }

  /** Every run of requests that succeeds keeps the membership a mirror of
      the table. */
  lemma {:induction false} HandleAllKeepsMirror(self: Host, c: Coordinator, rs: seq<Request>)
    requires Mirrors(c) && HandleAll(self, c, rs).Ok?
    ensures Mirrors(HandleAll(self, c, rs).value)
    decreases |rs|
  {
    if |rs| > 0 {
      HandleKeepsMirror(self, c, rs[0]);
      HandleAllKeepsMirror(self, Handle(self, c, rs[0]).value.next, rs[1..]);
    }
  }

  /** From the initial coordinator, the membership mirrors the table after
      any run of requests that succeeds. */
  lemma MirrorsFromInitial(self: Host, rs: seq<Request>)
    requires HandleAll(self, Initial, rs).Ok?
    ensures Mirrors(HandleAll(self, Initial, rs).value)
  {
    InitialMirrors();
    HandleAllKeepsMirror(self, Initial, rs);
  }

  /** Adding a partid and then deleting it leaves no host to pause or resume. */
  lemma AddThenDelete(self: Host, c: Coordinator, reqid: ReqId, partid: PartId, host: Host, reqid2: ReqId)
    requires Handle(self, c, AddParticipant(reqid, partid, host)).Ok?
    ensures var c1 := Handle(self, c, AddParticipant(reqid, partid, host)).value.next;
            var c2 := Handle(self, c1, DeleteParticipant(reqid2, partid)).value.next;
            && HostsOf(c2.participants, partid) == {}
            && Handle(self, c2, PauseParticipant(reqid2, partid)).value.pauses == {}
  {
  }

  /** `acks_required`: the phase-1 ballot a commit request opens in the vote
      counter waits for one vote per member (hw5/twophasecommit.rb:104-105). */
  function PhaseOneBallot(c: Coordinator, reqid: ReqId): (i: Input)
    ensures i.BeginVote? && i.ballot == reqid
    ensures Mirrors(c) ==> i.numVotes == |set k | k in c.participants :: (c.participants[k], k.1)|
  {
    BeginVote(reqid, |c.members|)
  }

  /** The phase-2 broadcast. */
  datatype Decision = Commit | Abort

  /** `rm.send_mcast` in block `reply` (hw5/twophasecommit.rb:115-121):
      commit when the phase-1 ballot was won by "yes", abort otherwise. */
  function PhaseTwo(res: BallotResult): (d: Decision)
    ensures d == Commit <==> res.status == Success && res.winner == Some(Yes)
  {
    if res.status == Success && res.winner == Some(Yes) then Commit else Abort
  }

  /** Under the unanimous counter, the phase-1 ballot completes with the
      vote of the last member, and the coordinator commits exactly when
      every member voted "yes". */
  lemma {:induction false} PhaseOneCommitsIffAllYes(c: Coordinator, reqid: ReqId, votes: seq<Row>, last: Row)
    requires forall x | x in votes :: x.ballot == reqid
    requires last.ballot == reqid && last !in votes
    requires |set x | x in votes| + 1 == |c.members|
    ensures var s := Replay(UnanimousCounter, Empty, [PhaseOneBallot(c, reqid)] + Casts(votes));
            var out := Tick(UnanimousCounter, s, CastVote(last));
            && out.results.Keys == {reqid}
            && (PhaseTwo(out.results[reqid]) == Commit <==>
                  last.choice == Yes && forall x | x in votes :: x.choice == Yes)
  {
    var n := |c.members|;
    var rows := set x | x in votes;
    var q := OfRatio(One);
    assert Replay(UnanimousCounter, Empty, [PhaseOneBallot(c, reqid)] + Casts(votes))
           == Counter(map[reqid := n], map[reqid := q], rows) by {
      OpenFixedBallot(UnanimousCounter, reqid, n, votes);
    }
    LastVoteCompletes(UnanimousCounter, reqid, n, q, rows, last);
    var all := rows + {last};
    assert |all| == n;
    UnanimousDecides(all, Yes);
    assert AllChoose(all, Yes) <==> last.choice == Yes && forall x | x in votes :: x.choice == Yes;
  }
}

=== FILE: twophase_participant.dfy ===
/**
 * The two-phase-commit participant (`TwoPCParticipant`,
 * hw5/twophasecommit.rb:29-56): active or paused, it answers phase-1
 * ballots with "yes" only while active, and acknowledges every `pause`
 * and `unpause` back to its sender. One tick handles one message.
 */
module TwoPCParticipant {

  type Host = string
  type ReqId = int
  type Ident = int

  /** A `pause`, `unpause` or `control_ack` tuple `[:@to, :from, :reqid]`
      (hw5/twophasecommit.rb:23-25). */
  datatype Control = Control(to: Host, from: Host, reqid: ReqId)

  /** The `:yes` a participant votes. */
  const Yes := "yes"

  /** `active` holds its single row exactly when the participant is active;
      `accepted` is the `active_ballot` table, the idents of the ballots that
      arrived while it was active (hw5/twophasecommit.rb:33-36). */
  datatype Participant = Participant(active: bool, accepted: set<Ident>)

  /** The message a tick delivers, if any: a phase-1 ballot from the voting
      agent, or a control message. */
  datatype Message =
    | BallotMsg(ident: Ident)
    | Pause(c: Control)
    | Unpause(c: Control)
    | Quiet

  /** The `cast_vote` tuples `[ident, response]` of a tick, the
      `control_ack` tuples it sends, and the next state. */
  datatype ParticipantOut = ParticipantOut(votes: set<(Ident, string)>, acks: set<Control>, next: Participant)

  /** The `bootstrap` state: active, with no ballot (hw5/twophasecommit.rb:38-40). */
  function Start(): (p: Participant)
    ensures p.active && p.accepted == {}
  {
    Participant(true, {})
  }

  /** The acknowledgement of a control message goes back to its sender:
      `to` and `from` swap, the request id stays. */
  function AckOf(c: Control): (a: Control)
    ensures a.to == c.from && a.from == c.to && a.reqid == c.reqid
  {
    Control(c.from, c.to, c.reqid)
  }

  /** One tick of blocks `decide` and `control` (hw5/twophasecommit.rb:42-55).
      A ballot joins `active_ballot` only while active, and `cast_vote`
      re-derives a "yes" for every row of that table; `pause` and `unpause`
      change `active` from the next tick on and are acknowledged whatever
      the current state. */
  function Step(p: Participant, m: Message): (out: ParticipantOut)
    ensures forall i, x :: (i, x) in out.votes <==>
              x == Yes && (i in p.accepted || (m == BallotMsg(i) && p.active))
    ensures out.acks == if m.Pause? || m.Unpause? then {AckOf(m.c)} else {}
    ensures out.next.active == if m.Pause? then false else if m.Unpause? then true else p.active
    ensures out.next.accepted == if m.BallotMsg? && p.active then p.accepted + {m.ident} else p.accepted
  {
    var accepted := if m.BallotMsg? && p.active then p.accepted + {m.ident} else p.accepted;
    var votes := set i | i in accepted :: (i, Yes);
    var acks := if m.Pause? || m.Unpause? then {AckOf(m.c)} else {};
    var active := match m
      case Pause(_) => false
      case Unpause(_) => true
      case _ => p.active;
    ParticipantOut(votes, acks, Participant(active, accepted))
  }

  /** Acknowledging an acknowledgement gives back the control message. */
  lemma AckRoundTrip(c: Control)
    ensures AckOf(AckOf(c)) == c
  {
  }

  /** A repeated `pause` changes nothing more, yet is acknowledged again. */
  lemma PauseIdempotent(p: Participant, c: Control)
    ensures var first := Step(p, Pause(c));
            var second := Step(first.next, Pause(c));
            && second.next == first.next
            && !second.next.active
            && second.acks == first.acks == {AckOf(c)}
  {
  }

  /** A repeated `unpause` likewise. */
  lemma UnpauseIdempotent(p: Participant, c: Control)
    ensures var first := Step(p, Unpause(c));
            var second := Step(first.next, Unpause(c));
            && second.next == first.next
            && second.next.active
            && second.acks == first.acks == {AckOf(c)}
  {
  }

  /** The state after a sequence of ticks. */
  function Run(p: Participant, ms: seq<Message>): Participant
    decreases |ms|
  {
    if |ms| == 0 then p else Run(Step(p, ms[0]).next, ms[1..])
  }

  /** Every `cast_vote` tuple of a sequence of ticks. */
  function VotesOf(p: Participant, ms: seq<Message>): set<(Ident, string)>
    decreases |ms|
  {
    if |ms| == 0 then {} else Step(p, ms[0]).votes + VotesOf(Step(p, ms[0]).next, ms[1..])
  }

  /** A participant only ever answers "yes". */
  lemma {:induction false} OnlyYes(p: Participant, ms: seq<Message>)
    ensures forall v | v in VotesOf(p, ms) :: v.1 == Yes
    decreases |ms|
  {
    if |ms| > 0 {
      OnlyYes(Step(p, ms[0]).next, ms[1..]);
    }
  }

  /** The prefix of the tail is the tail of the prefix. */
  lemma RunPrefix(p: Participant, ms: seq<Message>, k: nat)
    requires k < |ms|
    ensures Run(p, ms[..k + 1]) == Run(Step(p, ms[0]).next, ms[1..][..k])
  {
    assert ms[..k + 1][1..] == ms[1..][..k];
  }

  /** A participant votes for ballot i over a run exactly when it had
      already accepted i, or i arrives at a tick where it is active. */
  lemma {:induction false} VoteTrace(p: Participant, ms: seq<Message>, i: Ident)
    ensures (i, Yes) in VotesOf(p, ms) <==>
              (|ms| > 0 && i in p.accepted)
              || exists k | 0 <= k < |ms| :: ms[k] == BallotMsg(i) && Run(p, ms[..k]).active
    decreases |ms|
  {
    if |ms| > 0 {
      var q := Step(p, ms[0]).next;
      var rest := ms[1..];
      VoteTrace(q, rest, i);
      if (i, Yes) in VotesOf(p, ms) && !(i in p.accepted) {
        if (i, Yes) in Step(p, ms[0]).votes {
          assert ms[..0] == [];
          assert ms[0] == BallotMsg(i) && Run(p, ms[..0]).active;
        } else {
          assert (i, Yes) in VotesOf(q, rest);
          if |rest| > 0 && i in q.accepted {
            assert false;
          }
          var k :| 0 <= k < |rest| && rest[k] == BallotMsg(i) && Run(q, rest[..k]).active;
          RunPrefix(p, ms, k);
          assert ms[k + 1] == BallotMsg(i) && Run(p, ms[..k + 1]).active;
        }
      }
      if exists k | 0 <= k < |ms| :: ms[k] == BallotMsg(i) && Run(p, ms[..k]).active {
        var k :| 0 <= k < |ms| && ms[k] == BallotMsg(i) && Run(p, ms[..k]).active;
        if k == 0 {
          assert ms[..0] == [];
          assert (i, Yes) in Step(p, ms[0]).votes;
        } else {
          RunPrefix(p, ms, k - 1);
          assert rest[k - 1] == BallotMsg(i) && Run(q, rest[..k - 1]).active;
        }
      }
    }
  }

  /** Without an `unpause`, a paused participant stays paused. */
  lemma {:induction false} StaysPaused(p: Participant, ms: seq<Message>, k: nat)
    requires !p.active && k <= |ms|
    requires forall j | 0 <= j < |ms| :: !ms[j].Unpause?
    ensures !Run(p, ms[..k]).active
    decreases k
  {
    if k > 0 {
      StaysPaused(Step(p, ms[0]).next, ms[1..], k - 1);
      RunPrefix(p, ms, k - 1);
    }
  }

  /** A paused participant casts no vote for a ballot it had not accepted
      before the pause, for as long as no `unpause` arrives. */
  lemma PausedNeverVotes(p: Participant, ms: seq<Message>, i: Ident)
    requires !p.active && i !in p.accepted
    requires forall j | 0 <= j < |ms| :: !ms[j].Unpause?
    ensures (i, Yes) !in VotesOf(p, ms)
  {
    VoteTrace(p, ms, i);
    forall k | 0 <= k < |ms| ensures !Run(p, ms[..k]).active {
      StaysPaused(p, ms, k);
    }
  }

  /** An active participant answers each arriving ballot with exactly one
      "yes" in that tick. */
  lemma ActiveVotesOnce(p: Participant, i: Ident)
    requires p.active
    ensures var out := Step(p, BallotMsg(i));
            (i, Yes) in out.votes && forall x | (i, x) in out.votes :: x == Yes
  {
  }
}

=== FILE: vote_counter.dfy ===
/**
 * The ratio vote counter of voting/voting2.rb (`RatioVoteCounter` and its
 * `UnanimousVoteCounter` and `MajorityVoteCounter` variants) as a pure
 * step function over one Bud tick.
 *
 * A tick receives at most one input tuple. Rules written with `<=` are
 * visible within the tick (a cast vote joins `votes_rcvd` and can complete
 * its ballot at once); rules written with `<+` and `<-` only shape the
 * next state, where deletions are applied before insertions.
 */
module VoteCounter {
  import opened Wrappers
  import opened Quota

  type BallotId = int
  type Choice = string
  type Note = string

  /** One tuple of `cast_vote`, and so of `votes_rcvd` (voting/voting2.rb:20, 60). */
  datatype Row = Row(ballot: BallotId, choice: Choice, note: Note)

  /** The rows of `rows` that belong to ballot b. */
  function RowsOf(rows: set<Row>, b: BallotId): set<Row>
  {
    set r | r in rows && r.ballot == b
  }

  /** How many rows carry choice w (`grouped_vote_counts`). */
  function Count(rows: set<Row>, w: Choice): nat
  {
    |set r | r in rows && r.choice == w|
  }

  /** How many rows carry note x. */
  function NoteCount(rows: set<Row>, x: Note): nat
  {
    |set r | r in rows && r.note == x|
  }

  function Choices(rows: set<Row>): set<Choice>
  {
    set r | r in rows :: r.choice
  }

  function Notes(rows: set<Row>): set<Note>
  {
    set r | r in rows :: r.note
  }

  lemma CountPositive(rows: set<Row>, w: Choice)
    ensures Count(rows, w) > 0 <==> w in Choices(rows)
  {
    var a := set r | r in rows && r.choice == w;
    if w in Choices(rows) {
      var r :| r in rows && r.choice == w;
      assert r in a;
      assert |a| == |a - {r}| + 1;
    } else {
      assert (set r | r in rows && r.choice == w) == {};
    }
  }

  lemma NoteCountPositive(rows: set<Row>, x: Note)
    ensures NoteCount(rows, x) > 0 <==> x in Notes(rows)
  {
    var a := set r | r in rows && r.note == x;
    if x in Notes(rows) {
      var r :| r in rows && r.note == x;
      assert r in a;
      assert |a| == |a - {r}| + 1;
    } else {
      assert (set r | r in rows && r.note == x) == {};
    }
  }

  /** `accum(:vote)` up to order: every choice cast, with its multiplicity. */
  function VoteTally(rows: set<Row>): (t: map<Choice, nat>)
    ensures forall w :: w in t <==> Count(rows, w) > 0
    ensures forall w | w in t :: t[w] == Count(rows, w)
  {
    assert forall w :: w in Choices(rows) <==> Count(rows, w) > 0 by {
      forall w {
        CountPositive(rows, w);
      }
    }
    map w | w in Choices(rows) :: Count(rows, w)
  }

  /** `accum(:note)` up to order: every note sent, with its multiplicity. */
  function NoteTally(rows: set<Row>): (t: map<Note, nat>)
    ensures forall x :: x in t <==> NoteCount(rows, x) > 0
    ensures forall x | x in t :: t[x] == NoteCount(rows, x)
  {
    assert forall x :: x in Notes(rows) <==> NoteCount(rows, x) > 0 by {
      forall x {
        NoteCountPositive(rows, x);
      }
    }
    map x | x in Notes(rows) :: NoteCount(rows, x)
  }

  /** The choices cast at least k times (`winning_vote` candidates). */
  function Winners(rows: set<Row>, k: nat): set<Choice>
  {
    set w | w in Choices(rows) && Count(rows, w) >= k
  }

  lemma SubsetCard<T>(a: set<T>, b: set<T>)
    requires a <= b
    ensures |a| <= |b|
    ensures |a| == |b| ==> a == b
  {
    assert b == a + (b - a);
    assert |b| == |a| + |b - a|;
    if |a| == |b| {
      assert b - a == {};
    }
  }

  /** The converse of `AtMostOne`. */
  lemma OneMemberAtMost<T>(s: set<T>, a: T, b: T)
    requires |s| <= 1 && a in s && b in s
    ensures a == b
  {
    if a != b {
      SubsetCard({a, b}, s);
    }
  }

  /** A set whose elements are all equal has at most one of them. */
  lemma AtMostOne<T>(s: set<T>)
    requires forall a, b | a in s && b in s :: a == b
    ensures |s| <= 1
  {
    if s != {} {
      var x :| x in s;
      assert s == {x};
    }
  }

  lemma SingletonUnique<T>(s: set<T>)
    requires |s| == 1
    ensures forall a, b | a in s && b in s :: a == b
  {
    var x :| x in s;
    assert |s - {x}| == 0;
  }

  /** The one element of a singleton set. */
  function Pick<T>(s: set<T>): (x: T)
    requires |s| == 1
    ensures s == {x}
  {
    SingletonUnique(s);
    var x :| x in s;
    x
  }

  /** The status of the `result` output. `KeyError` stands for the
      duplicate-key error Bud raises when two choices reach the threshold
      and `winning_vote` (keyed by ballot) would hold both
      (voting/voting2.rb:80-86). */
  datatype Status = Success | Fail | KeyError

  /** A `result` tuple without its ballot id (the key of the result map). */
  datatype BallotResult = BallotResult(
    status: Status,
    winner: Option<Choice>,
    votes: map<Choice, nat>,
    notes: map<Note, nat>)

  /** Steps 1 to 3 of `process_data` for one completed ballot with n
      expected votes and, if one has arrived, its quota
      (voting/voting2.rb:149-176). Without a quota no `votes_needed` row
      exists, no `winning_vote` row either, and the outer join reports a
      failure. */
  function Decide(quota: Option<Quota>, rows: set<Row>, n: nat): (res: BallotResult)
    ensures res.votes == VoteTally(rows) && res.notes == NoteTally(rows)
    ensures res.status == Success <==>
              quota.Some? && |Winners(rows, VotesNeeded(quota.value, n))| == 1
    ensures res.status == KeyError <==>
              quota.Some? && |Winners(rows, VotesNeeded(quota.value, n))| > 1
    ensures res.winner.Some? <==> res.status == Success
    ensures res.winner.Some? ==>
              Winners(rows, VotesNeeded(quota.value, n)) == {res.winner.value}
  {
    if quota.None? then
      BallotResult(Fail, None, VoteTally(rows), NoteTally(rows))
    else
      var ws := Winners(rows, VotesNeeded(quota.value, n));
      if |ws| == 0 then
        BallotResult(Fail, None, VoteTally(rows), NoteTally(rows))
      else if |ws| == 1 then
        BallotResult(Success, Some(Pick(ws)), VoteTally(rows), NoteTally(rows))
      else
        BallotResult(KeyError, None, VoteTally(rows), NoteTally(rows))
  }

  /** Choice w wins exactly when it was cast, reaches the threshold k, and
      no other cast choice reaches k. */
  lemma DecideSelectsSoleQualifier(q: Quota, rows: set<Row>, n: nat, w: Choice)
    ensures Decide(Some(q), rows, n).winner == Some(w) <==>
              (&& Count(rows, w) > 0
               && Count(rows, w) >= VotesNeeded(q, n)
               && forall w' | w' != w && Count(rows, w') > 0 :: Count(rows, w') < VotesNeeded(q, n))
  {
    var k := VotesNeeded(q, n);
    var ws := Winners(rows, k);
    var res := Decide(Some(q), rows, n);
    CountPositive(rows, w);
    if res.winner == Some(w) {
      assert ws == {w};
      forall w' | w' != w && Count(rows, w') > 0
        ensures Count(rows, w') < k
      {
        CountPositive(rows, w');
        assert w' !in ws;
      }
    }
    if && Count(rows, w) > 0 && Count(rows, w) >= k
       && forall w' | w' != w && Count(rows, w') > 0 :: Count(rows, w') < k {
      forall w' | w' in ws ensures w' == w {
        CountPositive(rows, w');
      }
      assert ws == {w};
    }
  }

  /** Two different choices together have at most as many rows as there are. */
  lemma {:induction false} CountsOfTwoChoices(rows: set<Row>, w1: Choice, w2: Choice)
    requires w1 != w2
    ensures Count(rows, w1) + Count(rows, w2) <= |rows|
  {
    var a := set r | r in rows && r.choice == w1;
    var b := set r | r in rows && r.choice == w2;
    assert a !! b;
    assert |a + b| == |a| + |b|;
    SubsetCard(a + b, rows);
  }

  /** With a ratio above one half at most one choice reaches the threshold,
      so the result is a success with w exactly when w's count reaches
      `votes_needed`, and the duplicate-key error cannot occur
      (voting/voting2.rb:80-86, 158-163). */
  lemma {:induction false} AboveHalfDecides(r: Ratio, rows: set<Row>, w: Choice)
    requires 2 * r.num > r.den && |rows| >= 1
    ensures var res := Decide(Some(OfRatio(r)), rows, |rows|);
            && res.status != KeyError
            && (res.winner == Some(w) <==> Count(rows, w) >= VotesNeeded(OfRatio(r), |rows|))
  {
    var n := |rows|;
    var k := VotesNeeded(OfRatio(r), n);
    AboveHalfNeedsMajority(r, n);
    var ws := Winners(rows, k);
    forall w1, w2 | w1 in ws && w2 in ws ensures w1 == w2 {
      if w1 != w2 {
        CountsOfTwoChoices(rows, w1, w2);
        assert false;
      }
    }
    AtMostOne(ws);
    DecideSelectsSoleQualifier(OfRatio(r), rows, n, w);
    if Count(rows, w) >= k {
      forall w' | w' != w && Count(rows, w') > 0 ensures Count(rows, w') < k {
        CountPositive(rows, w);
        CountPositive(rows, w');
        assert w in ws;
      }
    }
  }

  /** Every row of `rows` carries choice w. */
  predicate AllChoose(rows: set<Row>, w: Choice)
  {
    forall r | r in rows :: r.choice == w
  }

  /** Ratio 1 (`UnanimousVoteCounter`, voting/voting2.rb:188-198): the
      ballot succeeds with w exactly when all of its votes are w. */
  lemma {:induction false} UnanimousDecides(rows: set<Row>, w: Choice)
    requires |rows| >= 1
    ensures Decide(Some(OfRatio(One)), rows, |rows|).winner == Some(w) <==> AllChoose(rows, w)
    ensures Decide(Some(OfRatio(One)), rows, |rows|).status != KeyError
  {
    var n := |rows|;
    UnanimousNeedsAll(n);
    AboveHalfDecides(One, rows, w);
    var a := set r | r in rows && r.choice == w;
    SubsetCard(a, rows);
    if Count(rows, w) >= n {
      assert a == rows;
    }
    if AllChoose(rows, w) {
      assert a == rows;
    }
  }

  /** The strict-majority quota: the ballot succeeds with w exactly when
      more than half of its n votes are w (the rule documented at
      voting/voting2.rb:201-203). */
  lemma {:induction false} StrictMajorityDecides(rows: set<Row>, w: Choice)
    requires |rows| >= 1
    ensures Decide(Some(StrictMajority), rows, |rows|).winner == Some(w) <==> 2 * Count(rows, w) > |rows|
    ensures Decide(Some(StrictMajority), rows, |rows|).status != KeyError
  {
    var n := |rows|;
    var k := VotesNeeded(StrictMajority, n);
    var ws := Winners(rows, k);
    forall w1, w2 | w1 in ws && w2 in ws ensures w1 == w2 {
      if w1 != w2 {
        CountsOfTwoChoices(rows, w1, w2);
        assert false;
      }
    }
    AtMostOne(ws);
    DecideSelectsSoleQualifier(StrictMajority, rows, n, w);
    CountPositive(rows, w);
    if 2 * Count(rows, w) > n {
      forall w' | w' != w && Count(rows, w') > 0 ensures Count(rows, w') < k {
        CountPositive(rows, w');
        assert w in ws;
      }
    }
  }

  /** Which module the counter is: the ratio counter takes ratios from the
      `ratio` input; the unanimous and majority counters override
      `add_ballot_ratio` and fix the quota when the ballot begins.
      `MajorityAsWritten` is the majority counter with the ratio 0.51 that
      voting/voting2.rb:214 inserts; `MajorityCounter` is the same counter
      with the strict majority its comments promise (lines 201-203, 208). */
  datatype Variant = RatioCounter | UnanimousCounter | MajorityCounter | MajorityAsWritten

  /** `ballot_ratios <+ begin_vote {|bv| [bv.ballot_id, 0.51]}` (voting/voting2.rb:214). */
  const MajorityQuotaAsWritten := OfRatio(FiftyOneHundredths)

  /** The quota a fixed-quota variant inserts on `begin_vote`: ratio 1 for
      the unanimous counter, ratio 51/100 for the majority counter as
      written, the strict majority for the majority counter. */
  function FixedQuota(v: Variant): (q: Option<Quota>)
    ensures q.Some? <==> v != RatioCounter
    ensures v == UnanimousCounter ==> q.value.OfRatio? && q.value.ratio.num == q.value.ratio.den
    ensures v == MajorityAsWritten ==> q.value.OfRatio? && 100 * q.value.ratio.num == 51 * q.value.ratio.den
    ensures v == MajorityCounter ==> q.value.StrictMajority?
  {
    match v
    case RatioCounter => None
    case UnanimousCounter => Some(OfRatio(One))
    case MajorityCounter => Some(StrictMajority)
    case MajorityAsWritten => Some(MajorityQuotaAsWritten)
  }

  /** What the fixed quotas demand of a ballot of n votes: all of them for
      the unanimous counter, more than half for the majority counter, and
      ceil(51 · n / 100) for the majority counter as written. */
  lemma FixedQuotaNeeds(v: Variant, n: nat)
    requires v != RatioCounter
    ensures var k := VotesNeeded(FixedQuota(v).value, n);
            && (v == UnanimousCounter ==> k == n)
            && (v == MajorityCounter ==> 2 * k > n && 2 * (k - 1) <= n)
            && (v == MajorityAsWritten ==> IsCeil(k, 51 * n, 100))
  {
    if v == UnanimousCounter {
      UnanimousNeedsAll(n);
    }
  }

  /** The three tables: `ongoing_ballots`, `ballot_ratios`, `votes_rcvd`
      (voting/voting2.rb:53-60). */
  datatype Counter = Counter(
    ongoing: map<BallotId, nat>,
    ratios: map<BallotId, Quota>,
    rcvd: set<Row>)

  const Empty := Counter(map[], map[], {})

  /** A fixed-quota counter only ever stores its own quota; otherwise its
      unconditional `<+` on `ballot_ratios` could clash with a stored key. */
  predicate Wf(v: Variant, s: Counter)
  {
    v != RatioCounter ==> forall b | b in s.ratios :: Some(s.ratios[b]) == FixedQuota(v)
  }

  /** The input tuple of one tick, if any. */
  datatype Input =
    | BeginVote(ballot: BallotId, numVotes: nat)
    | SetRatio(ballot: BallotId, ratio: Ratio)
    | CastVote(row: Row)
    | NoInput

  /** The `result` tuples of a tick, keyed by ballot id, and the next state. */
  datatype TickOut = TickOut(results: map<BallotId, BallotResult>, next: Counter)

  /** `votes_rcvd` within the tick: `votes_rcvd <= cast_vote` (voting/voting2.rb:124). */
  function Received(s: Counter, input: Input): (rows: set<Row>)
    ensures forall b | !(input.CastVote? && input.row.ballot == b) :: RowsOf(rows, b) == RowsOf(s.rcvd, b)
    ensures input.CastVote? ==> RowsOf(rows, input.row.ballot) == RowsOf(s.rcvd, input.row.ballot) + {input.row}
  {
    if input.CastVote? then s.rcvd + {input.row} else s.rcvd
  }

  /** A ballot is complete when its stored votes number `num_votes`; a
      ballot without votes has no `vote_summary` row and never completes
      (voting/voting2.rb:128-129, 141-143). */
  predicate IsComplete(rows: set<Row>, ongoing: map<BallotId, nat>, b: BallotId)
  {
    b in ongoing && 0 < |RowsOf(rows, b)| == ongoing[b]
  }

  function Completed(rows: set<Row>, ongoing: map<BallotId, nat>): set<BallotId>
  {
    set b | b in ongoing && IsComplete(rows, ongoing, b)
  }

  /** The pending `<+` on `ongoing_ballots` (`add_ballot`, voting/voting2.rb:105-107):
      a `begin_vote` for a ballot not yet ongoing, and nothing else. */
  function BallotInsert(s: Counter, input: Input): (m: map<BallotId, nat>)
    ensures forall b | b in m :: b !in s.ongoing && input == BeginVote(b, m[b])
    ensures input.BeginVote? && input.ballot !in s.ongoing ==> input.ballot in m
  {
    if input.BeginVote? && input.ballot !in s.ongoing then map[input.ballot := input.numVotes]
    else map[]
  }

  /** The pending `<+` on `ballot_ratios` (`add_ballot_ratio`,
      voting/voting2.rb:113-114, 196-197, 213-214): the ratio counter takes
      the first ratio sent for a ballot; a fixed-quota counter inserts its
      own quota on every `begin_vote` and never reads the `ratio` input. */
  function RatioInsert(v: Variant, s: Counter, input: Input): (m: map<BallotId, Quota>)
    ensures forall b | b in m :: (input.SetRatio? || input.BeginVote?) && input.ballot == b
    ensures v == RatioCounter ==>
              forall b | b in m :: input.SetRatio? && b !in s.ratios && m[b] == OfRatio(input.ratio)
    ensures v == RatioCounter && input.SetRatio? && input.ballot !in s.ratios ==> input.ballot in m
    ensures v != RatioCounter ==>
              forall b | b in m :: input.BeginVote? && Some(m[b]) == FixedQuota(v)
    ensures v != RatioCounter && input.BeginVote? ==> input.ballot in m
  {
    match v
    case RatioCounter =>
      if input.SetRatio? && input.ballot !in s.ratios then map[input.ballot := OfRatio(input.ratio)]
      else map[]
    case _ =>
      if input.BeginVote? then map[input.ballot := FixedQuota(v).value] else map[]
  }

  /** The state after a tick that completes `done`: the completed ballots
      are purged (step 4, voting/voting2.rb:179-181), and the pending
      insertions of the tick are applied. */
  function NextState(v: Variant, s: Counter, input: Input, done: set<BallotId>): (next: Counter)
    requires Wf(v, s) && done <= s.ongoing.Keys
    ensures Wf(v, next)
    ensures forall b | b in done :: b !in next.ongoing && RowsOf(next.rcvd, b) == {}
    ensures forall b | b in done && b in next.ratios ::
              (input.SetRatio? || input.BeginVote?) && input.ballot == b
    // Every other ballot keeps its entries, and its votes include any vote of this tick.
    ensures forall b | b !in done && b in s.ongoing ::
              b in next.ongoing && next.ongoing[b] == s.ongoing[b]
    ensures forall b | b !in done && b in s.ratios ::
              b in next.ratios && next.ratios[b] == s.ratios[b]
    ensures forall b | b !in done :: RowsOf(next.rcvd, b) == RowsOf(Received(s, input), b)
    // New entries come only from this tick's input.
    ensures forall b | b in next.ongoing && b !in s.ongoing ::
              input == BeginVote(b, next.ongoing[b])
    ensures input.BeginVote? && input.ballot !in s.ongoing ==>
              input.ballot in next.ongoing && next.ongoing[input.ballot] == input.numVotes
    ensures forall b | b in next.ratios && b !in s.ratios ::
              (input.SetRatio? || input.BeginVote?) && input.ballot == b
    // The ratio counter stores the first ratio sent for a ballot; the
    // fixed-quota counters store their own quota on every begin_vote.
    ensures v == RatioCounter && input.SetRatio? && input.ballot !in s.ratios ==>
              input.ballot in next.ratios && next.ratios[input.ballot] == OfRatio(input.ratio)
    ensures v != RatioCounter && input.BeginVote? ==>
              input.ballot in next.ratios && Some(next.ratios[input.ballot]) == FixedQuota(v)
    // A ratio that is new, or outlives its ballot's completion, is this tick's insertion.
    ensures forall b | b in next.ratios && (b in done || b !in s.ratios) ::
              b in RatioInsert(v, s, input) && next.ratios[b] == RatioInsert(v, s, input)[b]
  {
    var rows := Received(s, input);
    var next := Counter(
      (s.ongoing - done) + BallotInsert(s, input),
      (s.ratios - done) + RatioInsert(v, s, input),
      set r | r in rows && r.ballot !in done);
    assert forall b | b !in done :: RowsOf(next.rcvd, b) == RowsOf(rows, b);
    assert forall b | b in done :: RowsOf(next.rcvd, b) == {};
    next
  }

  /** One tick of the counter: report every ballot the tick completes, purge
      those ballots, and apply the pending insertions. */
  function Tick(v: Variant, s: Counter, input: Input): (out: TickOut)
    requires Wf(v, s)
    ensures Wf(v, out.next)
    // A ballot yields a result exactly when its stored votes number num_votes.
    ensures forall b :: b in out.results <==>
              b in s.ongoing && 0 < |RowsOf(Received(s, input), b)| == s.ongoing[b]
    ensures forall b | b in out.results ::
              out.results[b] == Decide(Lookup(s.ratios, b), RowsOf(Received(s, input), b), s.ongoing[b])
    // A completed ballot leaves no trace, except a ratio that arrives in the same tick.
    ensures forall b | b in out.results :: b !in out.next.ongoing && RowsOf(out.next.rcvd, b) == {}
    ensures forall b | b in out.results && b in out.next.ratios ::
              (input.SetRatio? || input.BeginVote?) && input.ballot == b
    // Every other ballot keeps its entries, and its votes include any vote of this tick.
    ensures forall b | b !in out.results && b in s.ongoing ::
              b in out.next.ongoing && out.next.ongoing[b] == s.ongoing[b]
    ensures forall b | b !in out.results && b in s.ratios ::
              b in out.next.ratios && out.next.ratios[b] == s.ratios[b]
    ensures forall b | b !in out.results :: RowsOf(out.next.rcvd, b) == RowsOf(Received(s, input), b)
    // New entries come only from this tick's input.
    ensures forall b | b in out.next.ongoing && b !in s.ongoing ::
              input == BeginVote(b, out.next.ongoing[b])
    ensures input.BeginVote? && input.ballot !in s.ongoing ==>
              input.ballot in out.next.ongoing && out.next.ongoing[input.ballot] == input.numVotes
    ensures forall b | b in out.next.ratios && b !in s.ratios ::
              (input.SetRatio? || input.BeginVote?) && input.ballot == b
    // The ratio counter stores the first ratio sent for a ballot; the
    // fixed-quota counters store their own quota on every begin_vote.
    ensures v == RatioCounter && input.SetRatio? && input.ballot !in s.ratios ==>
              input.ballot in out.next.ratios && out.next.ratios[input.ballot] == OfRatio(input.ratio)
    ensures v != RatioCounter && input.BeginVote? ==>
              input.ballot in out.next.ratios && Some(out.next.ratios[input.ballot]) == FixedQuota(v)
    // A ratio that is new, or outlives its ballot's completion, is this tick's insertion.
    ensures forall b | b in out.next.ratios && (b in out.results || b !in s.ratios) ::
              b in RatioInsert(v, s, input) && out.next.ratios[b] == RatioInsert(v, s, input)[b]
  {
    var rows := Received(s, input);
    var done := Completed(rows, s.ongoing);
    var results := map b | b in done :: Decide(Lookup(s.ratios, b), RowsOf(rows, b), s.ongoing[b]);
    TickOut(results, NextState(v, s, input, done))
  }

  /** A ballot's result carries `KeyError` exactly when two of its choices qualify. */
  lemma TickKeyError(v: Variant, s: Counter, input: Input, b: BallotId)
    requires Wf(v, s)
    ensures b in Tick(v, s, input).results && Tick(v, s, input).results[b].status == KeyError
            <==> TwoQualify(s, Received(s, input), b)
  {
    var out := Tick(v, s, input);
    if b in out.results {
      assert out.results[b] == Decide(Lookup(s.ratios, b), RowsOf(Received(s, input), b), s.ongoing[b]);
    }
  }

  /** A completed ballot with a quota under which two or more choices
      qualify: `winning_vote`, keyed by ballot, would need two rows. */
  predicate TwoQualify(s: Counter, rows: set<Row>, b: BallotId)
  {
    && IsComplete(rows, s.ongoing, b)
    && b in s.ratios
    && |Winners(RowsOf(rows, b), VotesNeeded(s.ratios[b], s.ongoing[b]))| > 1
  }

  /** The ballots whose `winning_vote` insertion breaks the key constraint. */
  datatype KeyViolation = KeyViolation(ballots: set<BallotId>)

  /** One tick as Bud runs it: when a completed ballot has two qualifying
      choices, the insertion into `winning_vote` raises a key-constraint
      error and the tick yields neither `result` tuples nor a next state
      (voting/voting2.rb:80-86, 158-163). Otherwise it is `Tick`, and no
      result carries `KeyError`. */
  function CheckedTick(v: Variant, s: Counter, input: Input): (res: Result<TickOut, KeyViolation>)
    requires Wf(v, s)
    ensures res.Err? <==> exists b :: TwoQualify(s, Received(s, input), b)
    ensures res.Err? ==> forall b :: b in res.error.ballots <==> TwoQualify(s, Received(s, input), b)
    ensures res.Ok? ==> res.value == Tick(v, s, input)
    ensures res.Ok? ==> forall b | b in res.value.results :: res.value.results[b].status != KeyError
  {
    var rows := Received(s, input);
    var bad := set b | b in s.ongoing && TwoQualify(s, rows, b);
    if bad == {} then
      assert forall b | b in Tick(v, s, input).results :: Tick(v, s, input).results[b].status != KeyError by {
        forall b | b in Tick(v, s, input).results ensures Tick(v, s, input).results[b].status != KeyError {
          assert b !in bad;
          TickKeyError(v, s, input, b);
        }
      }
      Ok(Tick(v, s, input))
    else
      Err(KeyViolation(bad))
  }

  /** A quota above one half: two choices cannot both reach it. */
  predicate AboveHalf(q: Quota)
  {
    q.StrictMajority? || 2 * q.ratio.num > q.ratio.den
  }

  /** The fixed-quota counters, and the ratio counter while every stored
      ratio is above one half, never raise the key-constraint error
      (voting/voting2.rb:80-86). */
  lemma {:induction false} AboveHalfNeverAborts(v: Variant, s: Counter, input: Input)
    requires Wf(v, s)
    requires v == RatioCounter ==> forall b | b in s.ratios :: AboveHalf(s.ratios[b])
    ensures CheckedTick(v, s, input).Ok?
  {
    var rows := Received(s, input);
    forall b | TwoQualify(s, rows, b) ensures false {
      var rb := RowsOf(rows, b);
      var q := s.ratios[b];
      assert s.ongoing[b] == |rb|;
      if v != RatioCounter {
        assert Some(q) == FixedQuota(v);
      }
      assert AboveHalf(q);
      var ws := Winners(rb, VotesNeeded(q, |rb|));
      var w :| w in ws;
      assert |ws - {w}| > 0;
      var w' :| w' in ws - {w};
      CountsOfTwoChoices(rb, w, w');
      if q.OfRatio? {
        AboveHalfNeedsMajority(q.ratio, |rb|);
      }
    }
  }

  /** The state after a sequence of ticks. */
  function Replay(v: Variant, s: Counter, inputs: seq<Input>): (t: Counter)
    requires Wf(v, s)
    ensures Wf(v, t)
    decreases |inputs|
  {
    if |inputs| == 0 then s else Replay(v, Tick(v, s, inputs[0]).next, inputs[1..])
  }

  /** Before a ballot's vote count reaches `num_votes` nothing is reported
      and nothing is purged: a tick that completes no ballot only adds its
      pending insertions and its vote (voting/voting2.rb:141-143, 170-181). */
  lemma QuietTick(v: Variant, s: Counter, input: Input)
    requires Wf(v, s)
    requires forall b | b in s.ongoing :: !IsComplete(Received(s, input), s.ongoing, b)
    ensures Tick(v, s, input).results == map[]
    ensures Tick(v, s, input).next.ongoing == s.ongoing + BallotInsert(s, input)
    ensures Tick(v, s, input).next.ratios == s.ratios + RatioInsert(v, s, input)
    ensures Tick(v, s, input).next.rcvd == Received(s, input)
  {
    var rows := Received(s, input);
    assert Completed(rows, s.ongoing) == {};
    assert s.ongoing - {} == s.ongoing;
    assert s.ratios - {} == s.ratios;
  }

  /** The ratio counter takes ratios only from `ratio`: a `begin_vote` for a
      ballot without one leaves it without one (voting/voting2.rb:113-114). */
  lemma RatioBeginStoresNoRatio(s: Counter, b: BallotId, n: nat)
    requires b !in s.ratios
    ensures b !in Tick(RatioCounter, s, BeginVote(b, n)).next.ratios
  {
  }

  /** A completed ballot's ratio is purged (voting/voting2.rb:180); only a
      ratio this tick inserts for it survives. */
  lemma CompletedRatioPurged(v: Variant, s: Counter, input: Input, b: BallotId)
    requires Wf(v, s)
    requires b in Tick(v, s, input).results && b !in RatioInsert(v, s, input)
    ensures b !in Tick(v, s, input).next.ratios
  {
  }

  /** `begin_vote` for a ballot already ongoing is ignored: the first
      `num_votes` stays (voting/voting2.rb:105-107). */
  lemma FirstBeginWins(v: Variant, s: Counter, b: BallotId, n: nat)
    requires Wf(v, s) && b in s.ongoing
    ensures var out := Tick(v, s, BeginVote(b, n));
            b in out.results || (b in out.next.ongoing && out.next.ongoing[b] == s.ongoing[b])
  {
  }

  /** A `ratio` for a ballot that already has one is ignored
      (voting/voting2.rb:113-114). */
  lemma FirstRatioWins(s: Counter, b: BallotId, r: Ratio)
    requires b in s.ratios
    ensures var out := Tick(RatioCounter, s, SetRatio(b, r));
            b in out.results || (b in out.next.ratios && out.next.ratios[b] == s.ratios[b])
  {
  }

  /** The fixed-quota variants never read the `ratio` input: a tick carrying
      one changes no ratio. */
  lemma FixedVariantIgnoresRatio(v: Variant, s: Counter, b: BallotId, r: Ratio)
    requires v != RatioCounter && Wf(v, s)
    ensures var out := Tick(v, s, SetRatio(b, r));
            forall b' | b' in out.next.ratios :: b' in s.ratios && out.next.ratios[b'] == s.ratios[b']
  {
  }

  /** Votes that arrive before their ballot begins are kept; once the
      ballot begins they count, and the tick after `begin_vote` completes
      it exactly when they already number `num_votes`
      (voting/voting2.rb:62-64, 124, 141-143). */
  lemma BufferedVotesCount(v: Variant, s: Counter, b: BallotId, n: nat)
    requires Wf(v, s) && b !in s.ongoing
    requires forall b' | b' in s.ongoing :: !IsComplete(s.rcvd, s.ongoing, b')
    ensures var s1 := Tick(v, s, BeginVote(b, n)).next;
            && Tick(v, s, BeginVote(b, n)).results == map[]
            && s1.rcvd == s.rcvd
            && b in s1.ongoing && s1.ongoing[b] == n
            && (b in Tick(v, s1, NoInput).results <==> 0 < |RowsOf(s.rcvd, b)| == n)
  {
    QuietTick(v, s, BeginVote(b, n));
  }

  /** The `cast_vote` inputs carrying the given rows, in order. */
  function Casts(rows: seq<Row>): (inputs: seq<Input>)
    ensures |inputs| == |rows|
    ensures forall i | 0 <= i < |rows| :: inputs[i] == CastVote(rows[i])
  {
    if |rows| == 0 then [] else [CastVote(rows[0])] + Casts(rows[1..])
  }

  lemma {:induction false} ReplayAppend(v: Variant, s: Counter, xs: seq<Input>, ys: seq<Input>)
    requires Wf(v, s)
    ensures Replay(v, s, xs + ys) == Replay(v, Replay(v, s, xs), ys)
    decreases |xs|
  {
    if |xs| == 0 {
      assert xs + ys == ys;
    } else {
      assert (xs + ys)[1..] == xs[1..] + ys;
      ReplayAppend(v, Tick(v, s, xs[0]).next, xs[1..], ys);
    }
  }

  /** One vote that keeps its ballot below `num_votes` is only stored. */
  lemma QuietVote(v: Variant, s: Counter, r: Row)
    requires Wf(v, s)
    requires forall b' | b' in s.ongoing :: !IsComplete(s.rcvd, s.ongoing, b')
    requires r.ballot in s.ongoing ==> |RowsOf(s.rcvd + {r}, r.ballot)| < s.ongoing[r.ballot]
    ensures Tick(v, s, CastVote(r)).next == s.(rcvd := s.rcvd + {r})
    ensures forall b' | b' in s.ongoing :: !IsComplete(s.rcvd + {r}, s.ongoing, b')
  {
    var input := CastVote(r);
    VoteKeepsIncomplete(s, r);
    assert Received(s, input) == s.rcvd + {r};
    assert BallotInsert(s, input) == map[] && RatioInsert(v, s, input) == map[];
    assert s.ongoing + map[] == s.ongoing && s.ratios + map[] == s.ratios;
    QuietTick(v, s, input);
  }

  /** A vote that keeps its own ballot below `num_votes` completes no ballot. */
  lemma VoteKeepsIncomplete(s: Counter, r: Row)
    requires forall b' | b' in s.ongoing :: !IsComplete(s.rcvd, s.ongoing, b')
    requires r.ballot in s.ongoing ==> |RowsOf(s.rcvd + {r}, r.ballot)| < s.ongoing[r.ballot]
    ensures forall b' | b' in s.ongoing :: !IsComplete(s.rcvd + {r}, s.ongoing, b')
  {
    var rows := s.rcvd + {r};
    forall b' | b' in s.ongoing ensures !IsComplete(rows, s.ongoing, b') {
      if b' != r.ballot {
        assert RowsOf(rows, b') == RowsOf(s.rcvd, b');
      }
    }
  }


  lemma ReplayCasts(v: Variant, s: Counter, rows: seq<Row>)
    requires Wf(v, s) && |rows| > 0
    ensures Replay(v, s, Casts(rows)) == Replay(v, Tick(v, s, CastVote(rows[0])).next, Casts(rows[1..]))
  {
    var inputs := Casts(rows);
    assert inputs[0] == CastVote(rows[0]);
    assert inputs[1..] == Casts(rows[1..]);
  }

  /** Votes of `rows` for ballot b keep it below `num_votes`, and no ballot
      of s is complete. */
  predicate BelowQuorum(s: Counter, b: BallotId, rows: seq<Row>)
  {
    && (forall b' | b' in s.ongoing :: !IsComplete(s.rcvd, s.ongoing, b'))
    && (forall r | r in rows :: r.ballot == b)
    && (b in s.ongoing ==> |RowsOf(s.rcvd, b) + set r | r in rows| < s.ongoing[b])
  }

  /** The first of the votes is stored, and the rest stay below `num_votes`. */
  lemma FirstVoteBelow(v: Variant, s: Counter, b: BallotId, rows: seq<Row>)
    requires Wf(v, s) && BelowQuorum(s, b, rows) && |rows| > 0
    ensures var s1 := s.(rcvd := s.rcvd + {rows[0]});
            && Wf(v, s1)
            && BelowQuorum(s1, b, rows[1..])
            && s1.rcvd + (set r | r in rows[1..]) == s.rcvd + set r | r in rows
  {
    var s1 := s.(rcvd := s.rcvd + {rows[0]});
    var all := RowsOf(s.rcvd, b) + set r | r in rows;
    assert RowsOf(s1.rcvd, b) + (set r | r in rows[1..]) == all;
    assert |RowsOf(s1.rcvd, b)| <= |all| by {
      SubsetCard(RowsOf(s1.rcvd, b), all);
    }
    VoteKeepsIncomplete(s, rows[0]);
  }

  /** Replaying the votes is replaying the rest after storing the first. */
  lemma FirstVoteReplay(v: Variant, s: Counter, b: BallotId, rows: seq<Row>)
    requires Wf(v, s) && BelowQuorum(s, b, rows) && |rows| > 0
    ensures Replay(v, s, Casts(rows)) == Replay(v, s.(rcvd := s.rcvd + {rows[0]}), Casts(rows[1..]))
  {
    assert |RowsOf(s.rcvd + {rows[0]}, b)| <= |RowsOf(s.rcvd, b) + set r | r in rows| by {
      SubsetCard(RowsOf(s.rcvd + {rows[0]}, b), RowsOf(s.rcvd, b) + set r | r in rows);
    }
    QuietVote(v, s, rows[0]);
    ReplayCasts(v, s, rows);
  }

  /** Votes for one ballot that stay below its `num_votes` (or whose ballot
      has not begun) accumulate in `votes_rcvd` and change nothing else. */
  lemma {:induction false} VotesAccumulate(v: Variant, s: Counter, b: BallotId, rows: seq<Row>)
    requires Wf(v, s) && BelowQuorum(s, b, rows)
    ensures Replay(v, s, Casts(rows)) == s.(rcvd := s.rcvd + set r | r in rows)
    decreases |rows|
  {
    if |rows| == 0 {
      assert s.rcvd + (set r | r in rows) == s.rcvd;
    } else {
      FirstVoteBelow(v, s, b, rows);
      FirstVoteReplay(v, s, b, rows);
      VotesAccumulate(v, s.(rcvd := s.rcvd + {rows[0]}), b, rows[1..]);
    }
  }

  /** As written, the majority counter stores the ratio 0.51: with 51
      voters a choice holding 26 votes, a strict majority, does not win
      (voting/voting2.rb:202-203 against 214). */
  lemma {:induction false} MajorityAsWrittenMissesStrictMajority(rows: set<Row>, w: Choice)
    requires |rows| == 51 && Count(rows, w) == 26
    ensures Decide(Some(MajorityQuotaAsWritten), rows, 51).status == Fail
    ensures Decide(Some(StrictMajority), rows, 51).winner == Some(w)
  {
    FiftyOneDiffersAtFiftyOne();
    var ws := Winners(rows, 27);
    forall w' | w' in ws ensures false {
      if w' != w {
        CountsOfTwoChoices(rows, w, w');
      }
    }
    assert ws == {};
    StrictMajorityDecides(rows, w);
  }

  /** Up to 50 voters the majority counter as written decides every ballot
      as the strict majority does. */
  lemma {:induction false} MajorityAsWrittenAgreesUpToFifty(rows: set<Row>)
    requires 1 <= |rows| <= 50
    ensures Decide(Some(MajorityQuotaAsWritten), rows, |rows|) == Decide(Some(StrictMajority), rows, |rows|)
  {
    FiftyOneAgreesUpToFifty(|rows|);
  }

  /** A row of the `result` output: ballot, status and winning choice. */
  datatype ResultRow = ResultRow(ballot: BallotId, status: Status, winner: Option<Choice>)

  /** Step 3 as written, `(completed_ballots * winning_vote).outer` with no
      join predicate (voting/voting2.rb:170-176): every completed ballot
      is paired with every winning vote, and with a null tuple only when
      there is no winning vote at all. */
  function ResultRowsAsWritten(completed: set<BallotId>, winning: set<(BallotId, Choice)>): (rows: set<ResultRow>)
    ensures forall r | r in rows :: r.ballot in completed
    ensures forall b, w :: ResultRow(b, Success, Some(w)) in rows <==> b in completed && (b, w) in winning
    // A completed ballot is also reported as failed whenever some other
    // ballot has a winning vote, even if it has one of its own.
    ensures forall b :: ResultRow(b, Fail, None) in rows <==>
              b in completed && (winning == {} || exists bw | bw in winning :: bw.0 != b)
    // Each row is a success with its winner or a failure with none.
    ensures forall r | r in rows :: (r.status == Success && r.winner.Some?) || (r.status == Fail && r.winner == None)
  {
    if winning == {} then
      set b | b in completed :: ResultRow(b, Fail, None)
    else
      set b, bw | b in completed && bw in winning ::
        if b == bw.0 then ResultRow(b, Success, Some(bw.1)) else ResultRow(b, Fail, None)
  }

  /** Two ballots completing in one tick, each with a winner, make the join
      as written report ballot 1 both as a success and as a failure: two
      `result` tuples for one key. */
  lemma ResultRowsAsWrittenClash()
    ensures var rows := ResultRowsAsWritten({1, 2}, {(1, "A"), (2, "B")});
            ResultRow(1, Success, Some("A")) in rows && ResultRow(1, Fail, None) in rows
  {
    var rows := ResultRowsAsWritten({1, 2}, {(1, "A"), (2, "B")});
    assert (1, (1, "A")).1.0 == 1;
    assert ResultRow(1, Success, Some("A")) in rows;
    assert ResultRow(1, Fail, None) in rows by {
      assert 1 in {1, 2} && (2, "B") in {(1, "A"), (2, "B")};
    }
  }

  /** `winning_vote` is keyed by ballot id: at most one winning choice per ballot. */
  predicate KeyedByBallot(winning: set<(BallotId, Choice)>)
  {
    forall x, y | x in winning && y in winning && x.0 == y.0 :: x == y
  }

  /** Step 3 as evidently intended: completed ballots joined with winning
      votes on the ballot id, failing where no winning vote matches. */
  function ResultRowsByBallot(completed: set<BallotId>, winning: set<(BallotId, Choice)>): (rows: set<ResultRow>)
    requires KeyedByBallot(winning)
    ensures forall r | r in rows :: r.ballot in completed
    ensures forall b, w :: ResultRow(b, Success, Some(w)) in rows <==> b in completed && (b, w) in winning
    ensures forall b :: ResultRow(b, Fail, None) in rows <==>
                          b in completed && forall bw | bw in winning :: bw.0 != b
    ensures forall r1, r2 | r1 in rows && r2 in rows && r1.ballot == r2.ballot :: r1 == r2
    ensures forall r | r in rows :: (r.status == Success && r.winner.Some?) || (r.status == Fail && r.winner == None)
  {
    set b | b in completed ::
      if exists bw | bw in winning :: bw.0 == b then
        var bw :| bw in winning && bw.0 == b;
        ResultRow(b, Success, Some(bw.1))
      else
        ResultRow(b, Fail, None)
  }

  /** The `winning_vote` tuples of a tick: every completed ballot that has a
      quota, paired with each choice reaching it (voting/voting2.rb:149-163). */
  function WinningVotes(s: Counter, rows: set<Row>, done: set<BallotId>): (wv: set<(BallotId, Choice)>)
    ensures forall b, w :: (b, w) in wv <==>
              && b in done && b in s.ratios && b in s.ongoing
              && Count(RowsOf(rows, b), w) > 0
              && Count(RowsOf(rows, b), w) >= VotesNeeded(s.ratios[b], s.ongoing[b])
  {
    assert forall b, w :: w in Choices(RowsOf(rows, b)) <==> Count(RowsOf(rows, b), w) > 0 by {
      forall b, w {
        CountPositive(RowsOf(rows, b), w);
      }
    }
    set b, w | b in done && b in s.ratios && b in s.ongoing
                 && w in Winners(RowsOf(rows, b), VotesNeeded(s.ratios[b], s.ongoing[b])) :: (b, w)
  }

  /** The result map of a tick read back as `result` tuples. */
  function ResultRows(results: map<BallotId, BallotResult>): set<ResultRow>
  {
    set b | b in results :: ResultRow(b, results[b].status, results[b].winner)
  }

  /** Without a duplicate-key error, each completed ballot has at most one
      winning vote. */
  lemma TickWinningKeyed(v: Variant, s: Counter, input: Input)
    requires Wf(v, s)
    requires forall b | b in Tick(v, s, input).results :: Tick(v, s, input).results[b].status != KeyError
    ensures KeyedByBallot(WinningVotes(s, Received(s, input), Tick(v, s, input).results.Keys))
  {
    var out := Tick(v, s, input);
    var rows := Received(s, input);
    var winning := WinningVotes(s, rows, out.results.Keys);
    forall x, y | x in winning && y in winning && x.0 == y.0 ensures x == y {
      var b := x.0;
      var ws := Winners(RowsOf(rows, b), VotesNeeded(s.ratios[b], s.ongoing[b]));
      assert x.1 in ws && y.1 in ws by {
        CountPositive(RowsOf(rows, b), x.1);
        CountPositive(RowsOf(rows, b), y.1);
      }
      assert |ws| <= 1 by {
        TickKeyError(v, s, input, b);
      }
      OneMemberAtMost(ws, x.1, y.1);
    }
  }

  /** A completed ballot's result row is the one the ballot-keyed join gives. */
  lemma TickRowJoined(v: Variant, s: Counter, input: Input, b: BallotId)
    requires Wf(v, s)
    requires b in Tick(v, s, input).results && Tick(v, s, input).results[b].status != KeyError
    requires KeyedByBallot(WinningVotes(s, Received(s, input), Tick(v, s, input).results.Keys))
    ensures var out := Tick(v, s, input);
            ResultRow(b, out.results[b].status, out.results[b].winner)
              in ResultRowsByBallot(out.results.Keys, WinningVotes(s, Received(s, input), out.results.Keys))
  {
    var out := Tick(v, s, input);
    var rows := Received(s, input);
    var winning := WinningVotes(s, rows, out.results.Keys);
    var res := out.results[b];
    assert res == Decide(Lookup(s.ratios, b), RowsOf(rows, b), s.ongoing[b]);
    if res.status == Success {
      var w := res.winner.value;
      assert w in Winners(RowsOf(rows, b), VotesNeeded(s.ratios[b], s.ongoing[b]));
      CountPositive(RowsOf(rows, b), w);
      assert (b, w) in winning;
    } else {
      forall bw | bw in winning ensures bw.0 != b {
        if bw.0 == b {
          assert false;
        }
      }
    }
  }

  /** Wherever no completed ballot has two qualifying choices, the results
      `Tick` reports are exactly the ballot-keyed join of the completed
      ballots with the tick's winning votes. */
  lemma TickJoinsByBallot(v: Variant, s: Counter, input: Input)
    requires Wf(v, s)
    requires forall b | b in Tick(v, s, input).results :: Tick(v, s, input).results[b].status != KeyError
    ensures var out := Tick(v, s, input);
            var winning := WinningVotes(s, Received(s, input), out.results.Keys);
            KeyedByBallot(winning) && ResultRows(out.results) == ResultRowsByBallot(out.results.Keys, winning)
  {
    var out := Tick(v, s, input);
    var winning := WinningVotes(s, Received(s, input), out.results.Keys);
    TickWinningKeyed(v, s, input);
    var joined := ResultRowsByBallot(out.results.Keys, winning);
    forall b | b in out.results ensures ResultRow(b, out.results[b].status, out.results[b].winner) in joined {
      TickRowJoined(v, s, input, b);
    }
    JoinedRows(out.results, winning);
  }

  /** When every result's row is in the ballot-keyed join, the two row sets
      are equal: the join has one row per completed ballot. */
  lemma JoinedRows(results: map<BallotId, BallotResult>, winning: set<(BallotId, Choice)>)
    requires KeyedByBallot(winning)
    requires forall b | b in results ::
               ResultRow(b, results[b].status, results[b].winner) in ResultRowsByBallot(results.Keys, winning)
    ensures ResultRows(results) == ResultRowsByBallot(results.Keys, winning)
  {
    var joined := ResultRowsByBallot(results.Keys, winning);
    forall r | r in joined ensures r in ResultRows(results) {
      var b := r.ballot;
      assert ResultRow(b, results[b].status, results[b].winner) in joined;
    }
  }
}

=== FILE: vote_scenarios.dfy ===
/**
 * The ballot scenarios of voting/tc_voting2.rb, replayed from an empty
 * counter. Each test case of that file starts after the previous ballot
 * was purged, so an empty counter is its exact starting state.
 */
module VoteScenarios {
  import opened Wrappers
  import opened Quota
  import opened VoteCounter
  import opened BallotLifecycle

  const Half: Ratio := Fraction(1, 2)

  /** A ballot whose votes all carry w, under a quota its n = |rows| votes
      reach, succeeds with w and reports w once per row. */
  lemma {:induction false} OneChoiceDecided(q: Quota, rows: set<Row>, w: Choice)
    requires AllChoose(rows, w) && |rows| >= 1 && VotesNeeded(q, |rows|) <= |rows|
    ensures var res := Decide(Some(q), rows, |rows|);
            && res.status == Success && res.winner == Some(w)
            && res.votes == map[w := |rows|]
  {
    assert (set r | r in rows && r.choice == w) == rows;
    forall w' | w' != w ensures Count(rows, w') == 0 {
      assert (set r | r in rows && r.choice == w') == {};
    }
    DecideSelectsSoleQualifier(q, rows, |rows|, w);
  }

  // test_ratio_voter_success, first case: ratio 1, two votes for Obama.

  /** Two Obama votes under a quota that two votes reach. */
  lemma TwoObamaDecided(q: Quota, b: BallotId)
    requires VotesNeeded(q, 2) <= 2
    ensures var rows := {Row(b, "Obama", "first"), Row(b, "Obama", "second")};
            var res := Decide(Some(q), rows, 2);
            && res.status == Success && res.winner == Some("Obama")
            && res.votes == map["Obama" := 2]
            && "first" in res.notes && "second" in res.notes
  {
    var rows := {Row(b, "Obama", "first"), Row(b, "Obama", "second")};
    assert |rows| == 2;
    OneChoiceDecided(q, rows, "Obama");
    NoteCountPositive(rows, "first");
    NoteCountPositive(rows, "second");
  }

  /** Ratio 1, n = 2, Obama and Obama: success with Obama, both votes and
      both notes reported, and the ballot purged (voting/tc_voting2.rb:33-43). */
  lemma RatioOneSuccess()
    ensures var s := Replay(RatioCounter, Empty, [BeginVote(1, 2), SetRatio(1, One)] + Casts([Row(1, "Obama", "first")]));
            var out := Tick(RatioCounter, s, CastVote(Row(1, "Obama", "second")));
            && out.results.Keys == {1}
            && out.results[1].status == Success
            && out.results[1].winner == Some("Obama")
            && out.results[1].votes == map["Obama" := 2]
            && "first" in out.results[1].notes && "second" in out.results[1].notes
            && out.next == Empty
  {
    var r1, r2 := Row(1, "Obama", "first"), Row(1, "Obama", "second");
    assert (set x | x in [r1]) + {r2} == {r1, r2};
    RatioBallotOutcome(1, 2, One, [r1], r2);
    UnanimousNeedsAll(2);
    TwoObamaDecided(OfRatio(One), 1);
  }

  // test_ratio_voter_success, second case: ratio 0.5, Obama, McCain, Obama.

  lemma HalfObamaMcCainObamaDecided()
    ensures var rows := {Row(2, "Obama", "first"), Row(2, "McCain", "second"), Row(2, "Obama", "third")};
            var res := Decide(Some(OfRatio(Half)), rows, 3);
            VotesNeeded(OfRatio(Half), 3) == 2 && res.status == Success && res.winner == Some("Obama")
  {
    var o1, m2, o3 := Row(2, "Obama", "first"), Row(2, "McCain", "second"), Row(2, "Obama", "third");
    var rows := {o1, m2, o3};
    var k := VotesNeeded(OfRatio(Half), 3);
    CeilIsLeast(k, 3, 2, 2);
    assert (set r | r in rows && r.choice == "Obama") == {o1, o3};
    assert (set r | r in rows && r.choice == "McCain") == {m2};
    assert Choices(rows) == {"Obama", "McCain"};
    assert Winners(rows, 2) == {"Obama"};
  }

  /** Ratio 0.5, n = 3, Obama, McCain, Obama: two votes are needed and
      Obama wins (voting/tc_voting2.rb:46-52). */
  lemma RatioHalfSuccess()
    ensures var s := Replay(RatioCounter, Empty,
                            [BeginVote(2, 3), SetRatio(2, Half)] + Casts([Row(2, "Obama", "first"), Row(2, "McCain", "second")]));
            var out := Tick(RatioCounter, s, CastVote(Row(2, "Obama", "third")));
            && out.results.Keys == {2}
            && out.results[2].status == Success
            && out.results[2].winner == Some("Obama")
            && out.next == Empty
  {
    var o1, m2, o3 := Row(2, "Obama", "first"), Row(2, "McCain", "second"), Row(2, "Obama", "third");
    assert (set x | x in [o1, m2]) == {o1, m2};
    assert {o1, m2} + {o3} == {o1, m2, o3};
    RatioBallotOutcome(2, 3, Half, [o1, m2], o3);
    HalfObamaMcCainObamaDecided();
  }

  /** Obama against McCain when every vote is needed. */
  lemma SplitPairDecided(q: Quota, b: BallotId)
    requires VotesNeeded(q, 2) == 2
    ensures var rows := {Row(b, "Obama", "first"), Row(b, "McCain", "second")};
            var res := Decide(Some(q), rows, 2);
            res.status == Fail && res.winner == None
  {
    var o, m := Row(b, "Obama", "first"), Row(b, "McCain", "second");
    var rows := {o, m};
    assert (set r | r in rows && r.choice == "Obama") == {o};
    assert (set r | r in rows && r.choice == "McCain") == {m};
    assert Choices(rows) == {"Obama", "McCain"};
    assert Winners(rows, 2) == {};
  }

  /** Ratio 1, n = 2, Obama and McCain: failure with no result
      (voting/tc_voting2.rb:62-67). */
  lemma RatioOneFail()
    ensures var s := Replay(RatioCounter, Empty, [BeginVote(1, 2), SetRatio(1, One)] + Casts([Row(1, "Obama", "first")]));
            var out := Tick(RatioCounter, s, CastVote(Row(1, "McCain", "second")));
            && out.results.Keys == {1}
            && out.results[1].status == Fail
            && out.results[1].winner == None
            && out.next == Empty
  {
    var o, m := Row(1, "Obama", "first"), Row(1, "McCain", "second");
    assert (set x | x in [o]) + {m} == {o, m};
    RatioBallotOutcome(1, 2, One, [o], m);
    UnanimousNeedsAll(2);
    SplitPairDecided(OfRatio(One), 1);
  }

  lemma HalfThreeWayDecided()
    ensures var rows := {Row(2, "Obama", "first"), Row(2, "McCain", "second"), Row(2, "Nader", "third")};
            var res := Decide(Some(OfRatio(Half)), rows, 3);
            res.status == Fail && res.winner == None
  {
    var o, m, d := Row(2, "Obama", "first"), Row(2, "McCain", "second"), Row(2, "Nader", "third");
    var rows := {o, m, d};
    var k := VotesNeeded(OfRatio(Half), 3);
    CeilIsLeast(k, 3, 2, 2);
    assert (set r | r in rows && r.choice == "Obama") == {o};
    assert (set r | r in rows && r.choice == "McCain") == {m};
    assert (set r | r in rows && r.choice == "Nader") == {d};
    assert Choices(rows) == {"Obama", "McCain", "Nader"};
    assert Winners(rows, 2) == {};
  }

  /** Ratio 0.5, n = 3, Obama, McCain, Nader: no choice reaches two votes,
      failure with no result (voting/tc_voting2.rb:70-76). */
  lemma RatioHalfFail()
    ensures var s := Replay(RatioCounter, Empty,
                            [BeginVote(2, 3), SetRatio(2, Half)] + Casts([Row(2, "Obama", "first"), Row(2, "McCain", "second")]));
            var out := Tick(RatioCounter, s, CastVote(Row(2, "Nader", "third")));
            && out.results.Keys == {2}
            && out.results[2].status == Fail
            && out.results[2].winner == None
            && out.next == Empty
  {
    var o, m, d := Row(2, "Obama", "first"), Row(2, "McCain", "second"), Row(2, "Nader", "third");
    assert (set x | x in [o, m]) == {o, m};
    assert {o, m} + {d} == {o, m, d};
    RatioBallotOutcome(2, 3, Half, [o, m], d);
    HalfThreeWayDecided();
  }

  /** The unanimous counter, n = 2, Obama and Obama: success with both
      votes and both notes reported (voting/tc_voting2.rb:86-94). */
  lemma UnanimousSuccess()
    ensures var s := Replay(UnanimousCounter, Empty, [BeginVote(1, 2)] + Casts([Row(1, "Obama", "first")]));
            var out := Tick(UnanimousCounter, s, CastVote(Row(1, "Obama", "second")));
            && out.results.Keys == {1}
            && out.results[1].status == Success
            && out.results[1].winner == Some("Obama")
            && out.results[1].votes == map["Obama" := 2]
            && "first" in out.results[1].notes && "second" in out.results[1].notes
            && out.next == Empty
  {
    var o1, o2 := Row(1, "Obama", "first"), Row(1, "Obama", "second");
    assert (set x | x in [o1]) + {o2} == {o1, o2};
    FixedBallotOutcome(UnanimousCounter, 1, 2, [o1], o2);
    UnanimousNeedsAll(2);
    TwoObamaDecided(OfRatio(One), 1);
  }

  /** The unanimous counter, n = 2, Obama and McCain: failure with no
      result (voting/tc_voting2.rb:96-101). */
  lemma UnanimousFail()
    ensures var s := Replay(UnanimousCounter, Empty, [BeginVote(2, 2)] + Casts([Row(2, "Obama", "first")]));
            var out := Tick(UnanimousCounter, s, CastVote(Row(2, "McCain", "second")));
            && out.results.Keys == {2}
            && out.results[2].status == Fail
            && out.results[2].winner == None
            && out.next == Empty
  {
    var p, m := Row(2, "Obama", "first"), Row(2, "McCain", "second");
    assert (set x | x in [p]) + {m} == {p, m};
    FixedBallotOutcome(UnanimousCounter, 2, 2, [p], m);
    UnanimousNeedsAll(2);
    SplitPairDecided(OfRatio(One), 2);
  }

  /** The majority counter as voting/tc_voting2.rb runs it (ratio 0.51),
      or with the strict majority its comments promise. */
  predicate IsMajority(v: Variant)
  {
    v == MajorityCounter || v == MajorityAsWritten
  }

  /** Both majority quotas need n/2 + 1 votes for the n <= 50 of the tests. */
  lemma MajorityNeeds(v: Variant, n: nat)
    requires IsMajority(v) && 1 <= n <= 50
    ensures VotesNeeded(FixedQuota(v).value, n) == n / 2 + 1
  {
    FiftyOneAgreesUpToFifty(n);
  }

  /** The majority counter, n = 2, Obama and Obama: both votes are needed,
      and the ballot succeeds with both votes and both notes reported
      (voting/tc_voting2.rb:110-119). */
  lemma MajorityPairSuccess(v: Variant)
    requires IsMajority(v)
    ensures var s := Replay(v, Empty, [BeginVote(1, 2)] + Casts([Row(1, "Obama", "first")]));
            var out := Tick(v, s, CastVote(Row(1, "Obama", "second")));
            && out.results.Keys == {1}
            && out.results[1].status == Success
            && out.results[1].winner == Some("Obama")
            && out.results[1].votes == map["Obama" := 2]
            && "first" in out.results[1].notes && "second" in out.results[1].notes
            && out.next == Empty
  {
    var o1, o2 := Row(1, "Obama", "first"), Row(1, "Obama", "second");
    assert (set x | x in [o1]) + {o2} == {o1, o2};
    FixedBallotOutcome(v, 1, 2, [o1], o2);
    MajorityNeeds(v, 2);
    TwoObamaDecided(FixedQuota(v).value, 1);
  }

  lemma MajorityThreeToOneDecided(v: Variant)
    requires IsMajority(v)
    ensures var rows := {Row(2, "Obama", "first"), Row(2, "Obama", "second"),
                         Row(2, "McCain", "third"), Row(2, "Obama", "fourth")};
            var res := Decide(FixedQuota(v), rows, 4);
            && res.status == Success && res.winner == Some("Obama")
            && res.votes == map["Obama" := 3, "McCain" := 1]
  {
    var rows := {Row(2, "Obama", "first"), Row(2, "Obama", "second"),
                 Row(2, "McCain", "third"), Row(2, "Obama", "fourth")};
    ThreeToOneTally();
    assert Decide(Some(StrictMajority), rows, 4).winner == Some("Obama") by {
      StrictMajorityDecides(rows, "Obama");
    }
    MajorityAsWrittenAgreesUpToFifty(rows);
  }

  /** The tally of three Obama votes against one McCain. */
  lemma ThreeToOneTally()
    ensures var rows := {Row(2, "Obama", "first"), Row(2, "Obama", "second"),
                         Row(2, "McCain", "third"), Row(2, "Obama", "fourth")};
            && |rows| == 4 && Count(rows, "Obama") == 3
            && VoteTally(rows) == map["Obama" := 3, "McCain" := 1]
  {
    var o1, o2, m3, o4 := Row(2, "Obama", "first"), Row(2, "Obama", "second"),
                          Row(2, "McCain", "third"), Row(2, "Obama", "fourth");
    var rows := {o1, o2, m3, o4};
    assert |rows| == 4;
    assert (set r | r in rows && r.choice == "Obama") == {o1, o2, o4};
    assert (set r | r in rows && r.choice == "McCain") == {m3};
    assert Choices(rows) == {"Obama", "McCain"};
  }

  /** The majority counter, n = 4, three Obama votes against one McCain:
      success with Obama, and the reported votes hold those counts
      (voting/tc_voting2.rb:122-131). */
  lemma MajoritySuccess(v: Variant)
    requires IsMajority(v)
    ensures var s := Replay(v, Empty,
                            [BeginVote(2, 4)] + Casts([Row(2, "Obama", "first"), Row(2, "Obama", "second"), Row(2, "McCain", "third")]));
            var out := Tick(v, s, CastVote(Row(2, "Obama", "fourth")));
            && out.results.Keys == {2}
            && out.results[2].status == Success
            && out.results[2].winner == Some("Obama")
            && out.results[2].votes == map["Obama" := 3, "McCain" := 1]
            && out.next == Empty
  {
    var o1, o2, m3, o4 := Row(2, "Obama", "first"), Row(2, "Obama", "second"),
                          Row(2, "McCain", "third"), Row(2, "Obama", "fourth");
    assert (set x | x in [o1, o2, m3]) == {o1, o2, m3};
    assert {o1, o2, m3} + {o4} == {o1, o2, m3, o4};
    FixedBallotOutcome(v, 2, 4, [o1, o2, m3], o4);
    MajorityThreeToOneDecided(v);
  }

  /** The majority counter, n = 2, one Obama and one McCain vote: failure
      with no result (voting/tc_voting2.rb:134-138). */
  lemma MajorityFail(v: Variant)
    requires IsMajority(v)
    ensures var s := Replay(v, Empty, [BeginVote(3, 2)] + Casts([Row(3, "Obama", "first")]));
            var out := Tick(v, s, CastVote(Row(3, "McCain", "second")));
            && out.results.Keys == {3}
            && out.results[3].status == Fail
            && out.results[3].winner == None
            && out.next == Empty
  {
    var p, m := Row(3, "Obama", "first"), Row(3, "McCain", "second");
    assert (set x | x in [p]) + {m} == {p, m};
    FixedBallotOutcome(v, 3, 2, [p], m);
    MajorityNeeds(v, 2);
    SplitPairDecided(FixedQuota(v).value, 3);
  }

  // Two ballots completing in the same tick, which the `result` join as
  // written cannot report (voting/voting2.rb:170-176).

  const ClashVote := Row(1, "A", "x")

  /** A vote for ballot 1 arrives first, both ratios next, then ballot 2
      and ballot 1 begin, each expecting one vote. */
  const ClashPrefix: seq<Input> :=
    [CastVote(ClashVote), SetRatio(1, One), SetRatio(2, One), BeginVote(2, 1), BeginVote(1, 1)]

  const ClashState := Counter(map[2 := 1, 1 := 1], map[1 := OfRatio(One), 2 := OfRatio(One)], {ClashVote})

  const ClashS1 := Counter(map[], map[], {ClashVote})
  const ClashS2 := Counter(map[], map[1 := OfRatio(One)], {ClashVote})
  const ClashS3 := Counter(map[], map[1 := OfRatio(One), 2 := OfRatio(One)], {ClashVote})
  const ClashS4 := Counter(map[2 := 1], map[1 := OfRatio(One), 2 := OfRatio(One)], {ClashVote})

  lemma ClashStep1()
    ensures Tick(RatioCounter, Empty, CastVote(ClashVote)).next == ClashS1
  {
    QuietTick(RatioCounter, Empty, CastVote(ClashVote));
  }

  lemma ClashStep2()
    ensures Tick(RatioCounter, ClashS1, SetRatio(1, One)).next == ClashS2
  {
    QuietTick(RatioCounter, ClashS1, SetRatio(1, One));
  }

  lemma ClashStep3()
    ensures Tick(RatioCounter, ClashS2, SetRatio(2, One)).next == ClashS3
  {
    QuietTick(RatioCounter, ClashS2, SetRatio(2, One));
  }

  lemma ClashStep4()
    ensures Tick(RatioCounter, ClashS3, BeginVote(2, 1)).next == ClashS4
  {
    QuietTick(RatioCounter, ClashS3, BeginVote(2, 1));
  }

  lemma ClashStep5()
    ensures Tick(RatioCounter, ClashS4, BeginVote(1, 1)).next == ClashState
  {
    assert RowsOf({ClashVote}, 2) == {};
    QuietTick(RatioCounter, ClashS4, BeginVote(1, 1));
  }

  lemma ClashPrefixReaches()
    ensures Replay(RatioCounter, Empty, ClashPrefix) == ClashState
  {
    var v := RatioCounter;
    var x0, x1, x2, x3, x4 := CastVote(ClashVote), SetRatio(1, One), SetRatio(2, One), BeginVote(2, 1), BeginVote(1, 1);
    assert ClashPrefix == [x0] + ([x1] + ([x2] + ([x3] + ([x4] + []))));
    assert Replay(v, Empty, ClashPrefix) == Replay(v, ClashS1, [x1] + ([x2] + ([x3] + ([x4] + [])))) by {
      ReplayStep(v, Empty, x0, [x1] + ([x2] + ([x3] + ([x4] + []))));
      ClashStep1();
    }
    assert Replay(v, ClashS1, [x1] + ([x2] + ([x3] + ([x4] + [])))) == Replay(v, ClashS2, [x2] + ([x3] + ([x4] + []))) by {
      ReplayStep(v, ClashS1, x1, [x2] + ([x3] + ([x4] + [])));
      ClashStep2();
    }
    assert Replay(v, ClashS2, [x2] + ([x3] + ([x4] + []))) == Replay(v, ClashS3, [x3] + ([x4] + [])) by {
      ReplayStep(v, ClashS2, x2, [x3] + ([x4] + []));
      ClashStep3();
    }
    assert Replay(v, ClashS3, [x3] + ([x4] + [])) == Replay(v, ClashS4, [x4] + []) by {
      ReplayStep(v, ClashS3, x3, [x4] + []);
      ClashStep4();
    }
    assert Replay(v, ClashS4, [x4] + []) == ClashState by {
      ReplayStep(v, ClashS4, x4, []);
      ClashStep5();
    }
  }

  const ClashLast := Row(2, "B", "y")

  lemma ClashReceived()
    ensures RowsOf(Received(ClashState, CastVote(ClashLast)), 1) == {ClashVote}
    ensures RowsOf(Received(ClashState, CastVote(ClashLast)), 2) == {ClashLast}
  {
  }

  /** A ballot of one vote, under ratio 1, is won by that vote. */
  lemma SingleVoteWins(r: Row)
    ensures Decide(Some(OfRatio(One)), {r}, 1).status == Success
    ensures Decide(Some(OfRatio(One)), {r}, 1).winner == Some(r.choice)
  {
    assert |{r}| == 1;
    UnanimousDecides({r}, r.choice);
  }

  /** Each of the two ballots completes with its one vote, under ratio 1. */
  lemma ClashTickResult(b: BallotId, r: Row)
    requires (b == 1 && r == ClashVote) || (b == 2 && r == ClashLast)
    ensures var out := Tick(RatioCounter, ClashState, CastVote(ClashLast));
            && b in out.results
            && out.results[b].status == Success
            && out.results[b].winner == Some(r.choice)
  {
    var out := Tick(RatioCounter, ClashState, CastVote(ClashLast));
    assert b in out.results && out.results[b] == Decide(Some(OfRatio(One)), {r}, 1) by {
      ClashReceived();
    }
    SingleVoteWins(r);
  }

  /** The vote for ballot 2 completes both open ballots, each with a winner. */
  lemma ClashTickResults()
    ensures var out := Tick(RatioCounter, ClashState, CastVote(ClashLast));
            && out.results.Keys == {1, 2}
            && out.results[1].winner == Some("A") && out.results[2].winner == Some("B")
            && out.results[1].status == Success && out.results[2].status == Success
            && forall b | b in out.results :: out.results[b].status != KeyError
  {
    var out := Tick(RatioCounter, ClashState, CastVote(ClashLast));
    assert out.results.Keys <= {1, 2};
    ClashTickResult(1, ClashVote);
    ClashTickResult(2, ClashLast);
  }

  lemma ClashWinningVotes()
    ensures WinningVotes(ClashState, Received(ClashState, CastVote(ClashLast)), {1, 2}) == {(1, "A"), (2, "B")}
  {
    var a, b := ClashVote, ClashLast;
    var rows := Received(ClashState, CastVote(b));
    assert RowsOf(rows, 1) == {a} && RowsOf(rows, 2) == {b};
    assert (set r | r in {a} && r.choice == "A") == {a};
    assert (set r | r in {b} && r.choice == "B") == {b};
    assert Winners({a}, 1) == {"A"} && Winners({b}, 1) == {"B"};
    UnanimousNeedsAll(1);
  }

  /** On that tick the `result` join as written reports ballot 1 both as a
      success and as a failure, whereas the ballot-keyed join reports each
      ballot once, as `Tick` does. */
  lemma ClashJoins()
    ensures var input := CastVote(ClashLast);
            var out := Tick(RatioCounter, ClashState, input);
            var winning := WinningVotes(ClashState, Received(ClashState, input), out.results.Keys);
            && ResultRow(1, Success, Some("A")) in ResultRowsAsWritten(out.results.Keys, winning)
            && ResultRow(1, Fail, None) in ResultRowsAsWritten(out.results.Keys, winning)
            && KeyedByBallot(winning)
            && ResultRows(out.results) == ResultRowsByBallot(out.results.Keys, winning)
  {
    var input := CastVote(ClashLast);
    var out := Tick(RatioCounter, ClashState, input);
    var winning := WinningVotes(ClashState, Received(ClashState, input), out.results.Keys);
    assert out.results.Keys == {1, 2} by {
      ClashTickResults();
    }
    assert winning == {(1, "A"), (2, "B")} by {
      ClashWinningVotes();
    }
    assert ResultRow(1, Success, Some("A")) in ResultRowsAsWritten({1, 2}, {(1, "A"), (2, "B")})
           && ResultRow(1, Fail, None) in ResultRowsAsWritten({1, 2}, {(1, "A"), (2, "B")}) by {
      ResultRowsAsWrittenClash();
    }
    assert forall b | b in out.results :: out.results[b].status != KeyError by {
      ClashTickResults();
    }
    TickJoinsByBallot(RatioCounter, ClashState, input);
  }

  /** The clash is reachable from an empty counter. */
  lemma TwoBallotsCompleteTogether()
    ensures Replay(RatioCounter, Empty, ClashPrefix) == ClashState
    ensures var out := Tick(RatioCounter, ClashState, CastVote(ClashLast));
            var winning := WinningVotes(ClashState, Received(ClashState, CastVote(ClashLast)), out.results.Keys);
            && out.results.Keys == {1, 2}
            && ResultRow(1, Success, Some("A")) in ResultRowsAsWritten(out.results.Keys, winning)
            && ResultRow(1, Fail, None) in ResultRowsAsWritten(out.results.Keys, winning)
  {
    ClashPrefixReaches();
    ClashTickResults();
    ClashJoins();
  }
}

=== FILE: wrappers.dfy ===
/** Option and Result, used for optional table lookups and for ticks the source aborts. */
module Wrappers {

  datatype Option<+T> = None | Some(value: T)

  datatype Result<+R, +E> = Ok(value: R) | Err(error: E)

  /** The value stored under `k` in `m`, if any. */
  function Lookup<K, V>(m: map<K, V>, k: K): (r: Option<V>)
    ensures r.Some? <==> k in m
    ensures r.Some? ==> r.value == m[k]
  {
    if k in m then Some(m[k]) else None
  }
}
